=== FILE: README.md ===
# chirpy: authentication, sessions and chirp moderation in Dafny

This project models the request handling core of chirpy, a small Go HTTP
service for posting short messages ("chirps"). The model covers:

- the credential helpers of `internal/auth`: the `Authorization` header
  parsers, refresh-token text, and issuing and validating access tokens (JWTs);
- the word filter and the 140-byte limit of `handler_validate.go`;
- the sign-up and login flows of `users.go`;
- the create, list, read and delete flows of `chirps.go`;
- trading and revoking refresh tokens (`refresh_token.go`, `revoke_token.go`);
- the refresh-token queries of `internal/database/refresh_token.sql.go`.

Every handler is a pure function from its decoded inputs to the status code,
the response body, and (for handlers that write) the database afterwards.

Modelling choices:

- A Go `(value, error)` pair is `Returned(value, err)`, so a contract can
  say which zero value an error path returns.
- Time is an integer count of nanoseconds. JWT `iat`/`exp` are whole seconds
  (`Seconds`). `MakeJWT` receives the two clock readings its body takes;
  handlers pass one `now` per request.
- Libraries the code calls are parameters of a `Config` record, mirroring
  `apiConfig`:
  - bcrypt is a `Hasher` (generate, matches);
  - golang-jwt is a `JwtLib` (sign, mac, decode, claimsRejected);
  - `uuid.Parse` is a `UuidParser` that returns a value alongside its error,
    because `handleGetChirps` ignores the error.
- `uuid.UUID.String` and `hex.EncodeToString` are concrete, and both are
  proved injective.
- Strings are sequences of Unicode scalar values:
  - white space is Go's `unicode.IsSpace`;
  - `len` is the UTF-8 byte count (`Text.Utf8Len`);
  - `strings.ToLower` is exact for every character whose lower case is
    ASCII, which is all the banned-word comparison can observe.
- The database is a record of maps (users by e-mail, chirps by id, refresh
  tokens by token text) plus an `available` flag. When it is false, every
  query fails with a store error and changes nothing. The flag holds for
  the whole request; the one handler that makes two queries,
  `handleDeleteOneChirp`, takes a further input saying whether the store
  fails its second query (the delete) after answering the first.

Behaviour of the code that a reader might not expect, kept by the model:

- `MakeJWT` takes no lifetime. `handleUserLogin` clamps `expires_in_seconds`
  (`getExpirationDuration`) and passes the result as a third argument to
  `MakeJWT` (users.go lines 119-120), but `MakeJWT` declares only two
  parameters (internal/auth/auth.go line 33), so the code as written does
  not compile. The model settles the mismatch on the side of `MakeJWT`'s
  declaration: the extra argument is dropped and every access token lasts
  one hour.
- Refresh-token expiry uses a strict "after". A token is still accepted at
  its exact `expires_at` instant.
- `RevokeToken` overwrites `revoked_at` on every call. The first revocation
  time is not kept.
- `handleCreateChirp` applies its 140-byte check to the chirp before
  decoding, so that check never fires and chirps of any length are stored.
- Login with an unknown e-mail answers 500, not 401. No refresh token is
  issued at login.
- None of the modelled files sets a refresh token's lifetime: `expires_at`
  is whatever the stored row holds.

## Model

| member | source | states |
|---|---|---|
| Text.TrimSpace | internal/auth/auth.go:114 | the result has no white space at either end, and the input is the result surrounded only by white space |
| Text.Utf8Len | handler_validate.go:47 | the byte length lies between one and four bytes per character, and equals the character count exactly when every character is ASCII |
| Text.Utf8LenOne | handler_validate.go:47 | one character takes 1, 2, 3 or 4 bytes as its code point is below 0x80, 0x800, 0x10000 or above |
| Text.Utf8LenAppend | handler_validate.go:47 | the byte length of joined text is the sum of the parts' byte lengths, so with the line above it fixes the length of every string |
| Text.Fields | handler_validate.go:24 | every field is non-empty and contains no white space |
| Text.FieldsOfInterleave | handler_validate.go:24 | words with white space around them and non-empty white space between them split into exactly those words, so a field ends only at white space and never inside a run of non-white-space |
| Text.FieldsSplitAtSpace | handler_validate.go:24 | every string is its fields with runs of white space around and between them, non-empty between two fields |
| Text.FieldsCharacterised | handler_validate.go:24 | the fields of a string are a given list of words exactly when the string is those words separated by non-empty white space, with any white space at either end |
| Text.FieldsSplitsOnlyAtSpace | handler_validate.go:24 | "a\tbc" splits into "a" and "bc": a tab separates fields like a space |
| Text.Join | handler_validate.go:31 | the result is the elements with the separator between each adjacent pair and nothing before the first or after the last |
| Text.ToLower | handler_validate.go:27 | same length; each character is lowered on its own, an ASCII capital becoming its small letter; no ASCII capital remains; text with nothing to lower is unchanged; a character comes out ASCII exactly when it was ASCII or lowers to ASCII |
| Text.LowerChar | handler_validate.go:27 | an ASCII capital becomes its small letter, the Kelvin sign becomes 'k' and the capital I with dot above becomes 'i'; the result is never an ASCII capital; it is ASCII exactly for ASCII input and those two characters; other ASCII is kept |
| Text.ToLowerIdempotent | handler_validate.go:27 | lowering lowered text changes nothing |
| Text.HasPrefix | internal/auth/auth.go:108 | true exactly when the prefix is no longer than the text and agrees with it character by character |
| Text.TrimPrefix | internal/auth/auth.go:112 | with the prefix present, prefix plus result is the input; otherwise the input is returned unchanged |
| Text.TrimPrefixRoundTrip | internal/auth/auth.go:108-112 | a prefix put in front is recognised and removing it gives back the rest |
| Text.FieldsOfJoin | handler_validate.go:24-31 | joining white-space-free words with single spaces and splitting again gives back the same words |
| Text.JoinSingleSpaced | handler_validate.go:31 | joined words carry no leading or trailing white space, and only single ' ' separators |
| Text.FieldsKeepContent | handler_validate.go:24 | splitting into fields loses exactly the white space and keeps every other character in order |
| Hex.Encode | internal/auth/auth.go:123 | two lower-case hex digits per byte, which decode back to that byte |
| Hex.EncodeInjective | internal/auth/auth.go:123 | different byte strings never encode to the same text |
| Uuids.UuidString | internal/auth/auth.go:44 | the 36-character 8-4-4-4-12 form: hyphens at positions 8, 13, 18 and 23, lower-case hex elsewhere, two digits per byte that decode to it |
| Uuids.UuidStringInjective | internal/auth/auth.go:44 | two ids with the same text are the same id, so a token subject names one user |
| Auth.HashPassword | internal/auth/auth.go:16-23 | a bcrypt failure returns "" with an error; otherwise the hash bcrypt produced |
| Auth.CheckPasswordHash | internal/auth/auth.go:25-31 | no error exactly when bcrypt accepts the password against the hash |
| Auth.HeaderGet | internal/auth/auth.go:101 | the first value under the key; "" when the key is absent or has no values |
| Auth.HeaderGetFirst | internal/auth/auth.go:101 | a value stored first under a key is what is read back, whatever other headers are present |
| Auth.GetBearerToken | internal/auth/auth.go:100-115 | an absent header and one without the exact "Bearer " prefix are distinct errors with an empty token; otherwise the token is the trimmed rest of the header |
| Auth.GetAPIKey | internal/auth/auth.go:128-143 | the same three outcomes for the "ApiKey " scheme |
| Auth.BearerRoundTrip | internal/auth/auth.go:100-115 | a token without surrounding white space, sent as "Bearer " plus the token, is read back unchanged |
| Auth.BearerWithBlankToken | internal/auth/auth.go:112-114 | a header of "Bearer" followed only by spaces is accepted, with an empty token |
| Auth.BearerSchemeIsExact | internal/auth/auth.go:107-110 | the scheme match is case-sensitive and needs the trailing space |
| Auth.SchemesExclusive | internal/auth/auth.go:100-143 | no header is accepted both as a bearer token and as an API key |
| Auth.MakeRefreshToken | internal/auth/auth.go:117-125 | a failed read of randomness gives "" and an error; otherwise 64 lower-case hex characters that decode to the 32 bytes read |
| Auth.RefreshTokensDistinct | internal/auth/auth.go:117-125 | different random bytes give different refresh tokens |
| Auth.AccessClaims | internal/auth/auth.go:40-45 | issuer "chirpy", subject the id's text; issued-at is the first clock reading truncated to whole seconds; expiry is the second reading plus one hour, truncated to whole seconds; so expiry is one hour after issue, or 3601 seconds when the readings straddle a second boundary |
| Auth.MakeJWT | internal/auth/auth.go:33-57 | fails, with an empty token, exactly for the nil id; otherwise the HS256 signature of those claims under the secret |
| Auth.ValidateJWT | internal/auth/auth.go:60-98 | succeeds exactly when the token decodes, declares HS256, carries a valid MAC, passes the claim checks and has a non-empty subject that parses; the id returned is the parsed subject; every failure returns the nil id; another algorithm is rejected as such |
| Auth.IssuedTokenValidates | internal/auth/auth.go:33-98 | a token issued for a non-nil id validates, before it expires, as that same id |
| Auth.OtherSecretRejected | internal/auth/auth.go:64-79 | a token checked under a secret other than the one that signed it is refused with the nil id |
| Database.CreateRefreshToken | internal/database/refresh_token.sql.go:16-57 | inserts the row as given and returns it, unless the store is down or the token exists; nothing else changes |
| Database.GetToken | internal/database/refresh_token.sql.go:68-86 | returns the row with exactly that token; no row is the no-rows error with a zero row |
| Database.RevokeToken | internal/database/refresh_token.sql.go:88-97 | stamps revoked_at and updated_at of the matching row with the current time and keeps its other fields and every other row; an unknown token is not an error |
| Database.DeleteRefreshTokens | internal/database/refresh_token.sql.go:59-66 | empties the refresh-token table and nothing else |
| Database.CreateThenGet | internal/database/refresh_token.sql.go:16-86 | a created token is found again exactly as supplied |
| Database.RevokeTwiceOverwrites | internal/database/refresh_token.sql.go:88-92 | revoking twice leaves the second time |
| Database.StoreKeepsWellKeyed | internal/database/refresh_token.sql.go:16-97 | the refresh-token queries keep every row filed under its own token |
| Database.CreateUser | users.go:65 | inserts and returns the row unless the store is down or its id or e-mail address is taken; a failure returns the zero row and changes nothing |
| Database.UserByEmail | users.go:105 | the user stored under exactly that address; an unknown address is the no-rows error |
| Database.CreateChirp | chirps.go:62 | inserts and returns the row unless the store is down or its id is taken; a failure returns the zero row and changes nothing |
| Database.GetOneChirp | chirps.go:146 | the chirp stored under that id; an unknown id is the no-rows error, told apart from a store failure |
| Database.DeleteOneChirp | chirps.go:204-207 | removes the chirp only when both its id and its author match |
| Database.ListChirps | chirps.go:94-120 | lists every stored chirp, or only the given author's |
| Moderation.CleanChirpBody | handler_validate.go:18-33 | the result is single-spaced, and its fields are the input's fields with each banned one masked |
| Moderation.MaskNotBanned | handler_validate.go:19-28 | the mask "****" is itself not a banned word |
| Moderation.CleanKeepsWords | handler_validate.go:24-30 | same number of fields; each output field is its input field or "****", and differs exactly when that field is banned, ignoring case |
| Moderation.CleanIdempotent | handler_validate.go:18-33 | cleaning a cleaned chirp changes nothing |
| Moderation.BannedExamples | handler_validate.go:19-27 | matching ignores case (including the Kelvin sign) but needs the whole field: "fornax!" and "sharberts" pass |
| Moderation.HandleValidateChirp | handler_validate.go:36-61 | 500 when the body does not decode, 400 when it is over 140 bytes, otherwise 200 with the cleaned chirp |
| Moderation.LimitCountsBytes | handler_validate.go:46-50 | 71 two-byte characters are refused while 140 ASCII characters pass |
| Users.ExpirationDuration | users.go:29-37 | between one second and one hour; the requested number of seconds exactly when it is 1 to 3600, one hour otherwise |
| Users.ExpirationDurationStable | users.go:29-37 | clamping an already clamped lifetime changes nothing |
| Users.HandleCreateNewUser | users.go:39-90 | 400 when the body does not decode or hashing fails, 500 when the insert fails, otherwise 201 with the new row; the stored password is the hash, the response carries no token, and a failure changes nothing |
| Users.SignUpStoresHash | users.go:50-63 | the plaintext password is stored only if the hasher returned it unchanged |
| Users.HandleUserLogin | users.go:92-146 | 400 on a bad body; 500 when the lookup fails (including an unknown e-mail) or the id is nil; 401 on a wrong password; otherwise 200 with that user's fields and a token for that user |
| Users.LoginUnknownEmail | users.go:105-110 | an unknown e-mail is answered 500 |
| Users.LoginTokenNamesUser | users.go:119-133 | the token a login returns validates as the logged-in user |
| Users.SignUpThenLogin | users.go:39-146 | after a sign-up, logging in with the same password succeeds for the new account |
| Chirps.Authenticate | chirps.go:32-44 | the caller is known exactly when the header holds a bearer token that validates, and is that token's subject |
| Chirps.HandleCreateChirp | chirps.go:23-78 | never 400; 401 exactly when authentication fails; 500 when the body does not decode or the insert fails; otherwise 201 storing the cleaned body under the caller's id; only 201 changes the database |
| Chirps.CreateIgnoresClaimedAuthor | chirps.go:54-60 | the user_id in the request body has no effect |
| Chirps.CreateAcceptsLongBody | chirps.go:24-30 | a chirp over 140 bytes is stored |
| Chirps.ListQuery | chirps.go:86-96 | filters by author exactly when author_id is non-empty, using the parser's value even when parsing failed; newest first exactly for sort=desc |
| Chirps.HandleGetChirps | chirps.go:80-131 | 405 for a method other than GET; 200 exactly when the store answers, listing every chirp or only the selected author's |
| Chirps.AuthorListingIsFilter | chirps.go:94-120 | an author's listing is the full listing filtered by that author, whatever the sort order |
| Chirps.HandleGetOneChirp | chirps.go:134-165 | 405 for a method other than GET; 404 for an id that does not parse or is not stored; 500 when the store is down; otherwise 200 with that chirp |
| Chirps.CreateThenGetOne | chirps.go:23-165 | a posted chirp is served back unchanged at its id |
| Chirps.HandleDeleteOneChirp | chirps.go:167-216 | checked in this order: 400 for an unparsable id, 401, 404 for no such chirp, 500 if the store is down, 403 for another author's chirp, 500 if the delete query fails; 204 removes exactly that chirp, and every other outcome changes nothing |
| Chirps.OwnerDeletes | chirps.go:198-215 | the author's request removes the chirp, which is then not found |
| Chirps.OthersCannotDelete | chirps.go:198-201 | anyone else gets 403 and the database is unchanged, whether or not the delete query would fail |
| Chirps.DeleteQueryFails | chirps.go:203-213 | the author's request answers 500 with "Internal server error" and keeps the chirp when the delete query fails after the lookup succeeded |
| Chirps.CreateThenDelete | chirps.go:23-216 | the author deleting a chirp they just posted restores the database exactly |
| Sessions.HandleRefreshToken | refresh_token.go:12-54 | 401 when the header, the lookup, the expiry or the revocation check fails; 500 for a row owned by the nil id; otherwise 200 with an access token for the row's owner |
| Sessions.HandleRevokeToken | revoke_token.go:10-24 | 204 exactly when the header carries a bearer token and the store answers; it stamps revoked_at and updated_at of that token's row with the current time, keeps the row's other fields, every other row, the users, the chirps and the store's availability; an unknown token changes nothing; otherwise 401 and no change |
| Sessions.RevokeThenRefresh | refresh_token.go:30-33 | once revoked, a refresh token is refused at any time |
| Sessions.ExpiryBoundary | refresh_token.go:25-28 | accepted at its expires_at instant and refused one nanosecond later |
| Sessions.RefreshIsRepeatable | refresh_token.go:19-39 | redeeming does not consume the token: what succeeds now also succeeds at any earlier time |
| Sessions.RevokeUnknownToken | revoke_token.go:17-23 | revoking a token the store does not hold answers 204 and changes nothing |
| Sessions.CreateThenRefresh | refresh_token.go:12-54 | a stored, unexpired, unrevoked token yields an access token that validates as its owner |

## Left out

- Password hashing: bcrypt is an abstract `Hasher`. `CheckPasswordHash` is as good as its `matches` relation. bcrypt salts at random, so two calls with one password give different hashes; `generate` stands for the outcome of a single call, and nothing here relates two sign-ups.
- JWT handling: signing, the MAC, base64url/JSON decoding and golang-jwt's
  registered-claim checks are the abstract `JwtLib`:
  - `claimsRejected` stands for the library's `exp`/`nbf`/`iat` checks;
  - the `!token.Valid` branch (auth.go lines 82-84) cannot be reached once parsing succeeded, so it is not a separate case;
  - the signing error of `MakeJWT` (lines 51-54) is not modelled, because signing with an HMAC key does not fail.
- `uuid.Parse` and `uuid.New`: the parser is a parameter, and new ids and the clock are inputs to each handler.
- Randomness: `crypto/rand` is the `Option` of bytes given to `MakeRefreshToken`.
- JSON: decoding is an `Option` of the decoded struct. Encoding failures after a write, and the exact bytes of each JSON body, are not modelled. Response bodies are abstract `Body` values.
- Integer width: none is needed. A JSON number out of range for `expires_in_seconds` makes the decoder fail, which is the decode-error branch (`payload` is None, 400); the conversion to a duration happens only for 1 to 3600 seconds.
- Header keys: `http.Header.Get` key canonicalisation is assumed done; headers are keyed by canonical name.
- Chirps.HandleGetChirps: after a failed author query the code writes the error and then falls through. The model keeps the 500 status and the error text, but not the JSON `null` that the encoder then appends to the body.
- Database.ListChirps: the row order (ascending or descending `created_at`) is not modelled. The result is a set.
- Users and chirps queries: their SQL is not part of this model. Uniqueness of user ids, user e-mails and chirp ids is assumed, as an INSERT with such keys would enforce. The refresh-token table is keyed by its token text in the same way, so `Database.CreateRefreshToken` refuses a token that is already stored.
- Out of scope: the HTTP server, routing, metrics, the admin reset endpoint, and `main.go` configuration loading.
- `handlerChirpsValidate` is not registered as a route, because its route is commented out. It is still modelled as the definition of the 140-byte rule.
- Text.LowerChar: only characters whose Go lower case is ASCII are mapped, because only those can turn a word into a banned one. Other characters are left unchanged.
- `handleUpdateUser` and `handleWebhooks` are routed in `main.go`, but their source is not part of this model.
- Method checks: `main.go` registers the list and read handlers under "GET" patterns. Go's `ServeMux` refuses most other methods itself, but a "GET" pattern also matches HEAD, so a HEAD request reaches these handlers and gets their own 405. The model keeps the handlers' 405 branches as written, for every method other than GET.

=== FILE: auth.dfy ===
/** internal/auth/auth.go: password hashing, access tokens (JWT, HS256),
    refresh-token text, and reading credentials from the Authorization header.

    The libraries the file calls are parameters: bcrypt is a `Hasher`, the
    golang-jwt signer/parser is a `JwtLib`, and `uuid.Parse` is a
    `UuidParser`. Time is an integer count of nanoseconds. */
module Auth {
  import opened Outcomes
  import opened Text
  import opened Hex
  import opened Uuids

  datatype AuthError =
    | HashingFailed         // bcrypt.GenerateFromPassword failed
    | PasswordMismatch      // bcrypt.CompareHashAndPassword failed
    | HeaderAbsent          // "authorization header not present"
    | HeaderMalformed       // "malformed authorization header"
    | EntropyFailure        // crypto/rand.Read failed
    | NilUserId             // "invalid UUID: userID cannot be empty"
    | TokenMalformed        // the library could not split or decode the token
    | UnexpectedSigningMethod
    | SignatureInvalid
    | ClaimsRejected        // the library's time-based claim checks failed
    | SubjectMissing        // "token subject is missing"
    | SubjectNotUuid        // "invalid UUID in token subject"

  // ---------------------------------------------------------------------
  // Passwords (bcrypt, abstract)

  /** bcrypt as the file uses it: `generate` is `GenerateFromPassword` at the
      default cost (None when it fails), `matches` is `CompareHashAndPassword`
      succeeding for (password, hash). */
  datatype Hasher = Hasher(generate: string -> Option<string>, matches: (string, string) -> bool)

  function HashPassword(hasher: Hasher, password: string): (r: Returned<string, AuthError>)
    ensures hasher.generate(password).None? ==> r == Returned("", Some(HashingFailed))
    ensures hasher.generate(password).Some? ==> r == Returned(hasher.generate(password).value, None)
  {
    match hasher.generate(password)
    case None => Returned("", Some(HashingFailed))
    case Some(h) => Returned(h, None)
  }

  function CheckPasswordHash(hasher: Hasher, password: string, hash: string): (r: Option<AuthError>)
    ensures r.None? <==> hasher.matches(password, hash)
  {
    if hasher.matches(password, hash) then None else Some(PasswordMismatch)
  }

  // ---------------------------------------------------------------------
  // The Authorization header

  /** Request headers under their canonical keys. */
  type Headers = map<string, seq<string>>

  const Authorization := "Authorization"
  const BearerPrefix := "Bearer "
  const ApiKeyPrefix := "ApiKey "

  /** `http.Header.Get`: the first value under the key, or "" if there is none. */
  function HeaderGet(headers: Headers, key: string): (v: string)
    ensures v != "" ==> key in headers && |headers[key]| > 0 && v == headers[key][0]
    ensures key !in headers || headers[key] == [] ==> v == ""
    ensures key in headers && headers[key] != [] ==> v == headers[key][0]
  {
    if key in headers && headers[key] != [] then headers[key][0] else ""
  }

  /** The first value stored under a key is what `Get` reads back, whatever
      else the headers hold. */
  lemma HeaderGetFirst(headers: Headers, key: string, first: string, more: seq<string>)
    ensures HeaderGet(headers[key := [first] + more], key) == first
  {
  }

  /** The headers a client sends with a single Authorization value. */
  function AuthorizationHeader(value: string): Headers {
    map[Authorization := [value]]
  }

  /** The steps GetBearerToken and GetAPIKey share, for a given scheme prefix. */
  function Credential(headers: Headers, prefix: string): Returned<string, AuthError> {
    var authHeader := HeaderGet(headers, Authorization);
    if authHeader == "" then Returned("", Some(HeaderAbsent))
    else if !HasPrefix(authHeader, prefix) then Returned("", Some(HeaderMalformed))
    else Returned(TrimSpace(TrimPrefix(authHeader, prefix)), None)
  }

  /** The token of an `Authorization: Bearer <token>` header. The scheme is
      matched case-sensitively and with exactly one space; the rest is
      trimmed of white space and may be empty. */
  function GetBearerToken(headers: Headers): (r: Returned<string, AuthError>)
    ensures r.err == Some(HeaderAbsent) <==> HeaderGet(headers, Authorization) == ""
    ensures r.err == Some(HeaderMalformed) <==>
      HeaderGet(headers, Authorization) != "" && !HasPrefix(HeaderGet(headers, Authorization), BearerPrefix)
    ensures r.Ok() <==> HasPrefix(HeaderGet(headers, Authorization), BearerPrefix)
    ensures !r.Ok() ==> r.value == ""
    ensures r.Ok() ==> Trimmed(r.value) && Surrounds(HeaderGet(headers, Authorization)[|BearerPrefix|..], r.value)
  {
    Credential(headers, BearerPrefix)
  }

  /** The key of an `Authorization: ApiKey <key>` header, with the same rules. */
  function GetAPIKey(headers: Headers): (r: Returned<string, AuthError>)
    ensures r.err == Some(HeaderAbsent) <==> HeaderGet(headers, Authorization) == ""
    ensures r.err == Some(HeaderMalformed) <==>
      HeaderGet(headers, Authorization) != "" && !HasPrefix(HeaderGet(headers, Authorization), ApiKeyPrefix)
    ensures r.Ok() <==> HasPrefix(HeaderGet(headers, Authorization), ApiKeyPrefix)
    ensures !r.Ok() ==> r.value == ""
    ensures r.Ok() ==> Trimmed(r.value) && Surrounds(HeaderGet(headers, Authorization)[|ApiKeyPrefix|..], r.value)
  {
    Credential(headers, ApiKeyPrefix)
  }

  /** A bearer header carries back exactly the token it was built from. */
  lemma BearerRoundTrip(token: string)
    requires Trimmed(token)
    ensures GetBearerToken(AuthorizationHeader(BearerPrefix + token)) == Returned(token, None)
  {
    var v := BearerPrefix + token;
    assert HeaderGet(AuthorizationHeader(v), Authorization) == v;
    assert v[..|BearerPrefix|] == BearerPrefix;
    assert v[|BearerPrefix|..] == token;
    TrimSpaceOfTrimmed(token);
  }

  /** "Bearer" followed only by spaces is accepted, with an empty token. */
  lemma BearerWithBlankToken()
    ensures GetBearerToken(AuthorizationHeader("Bearer   ")) == Returned("", None)
  {
    var v := "Bearer   ";
    assert HeaderGet(AuthorizationHeader(v), Authorization) == v;
    assert v[..|BearerPrefix|] == BearerPrefix;
    assert v[|BearerPrefix|..] == "  ";
    assert TrimLeft("  ") == TrimLeft(" ") == TrimLeft("");
  }

  /** The scheme is case-sensitive and needs its one space. */
  lemma BearerSchemeIsExact()
    ensures GetBearerToken(AuthorizationHeader("bearer abc")).err == Some(HeaderMalformed)
    ensures GetBearerToken(AuthorizationHeader("Bearer")).err == Some(HeaderMalformed)
  {
    assert HeaderGet(AuthorizationHeader("bearer abc"), Authorization) == "bearer abc";
    assert "bearer abc"[..7] != BearerPrefix by {
      assert "bearer abc"[0] != BearerPrefix[0];
    }
    assert HeaderGet(AuthorizationHeader("Bearer"), Authorization) == "Bearer";
  }

  /** A header is never accepted under both schemes. */
  lemma SchemesExclusive(headers: Headers)
    ensures !(GetBearerToken(headers).Ok() && GetAPIKey(headers).Ok())
  {
    var v := HeaderGet(headers, Authorization);
    if GetBearerToken(headers).Ok() {
      assert v[0] == BearerPrefix[0] == 'B';
      assert ApiKeyPrefix[0] == 'A';
    }
  }

  // ---------------------------------------------------------------------
  // Refresh-token text

  const RefreshTokenBytes := 32

  /** MakeRefreshToken: `read` is what crypto/rand.Read filled the 32-byte
      buffer with, or None when the read failed. The token is the lowercase
      hex of those bytes. */
  function MakeRefreshToken(read: Option<seq<byte>>): (r: Returned<string, AuthError>)
    requires read.Some? ==> |read.value| == RefreshTokenBytes
    ensures read.None? ==> r == Returned("", Some(EntropyFailure))
    ensures read.Some? ==> r.Ok() && |r.value| == 64
    ensures read.Some? ==> forall i :: 0 <= i < |r.value| ==> IsLowerHex(r.value[i])
    ensures read.Some? ==> forall k :: 0 <= k < RefreshTokenBytes ==>
      16 * DigitValue(r.value[2 * k]) + DigitValue(r.value[2 * k + 1]) == read.value[k]
  {
    match read
    case None => Returned("", Some(EntropyFailure))
    case Some(bytes) => Returned(Encode(bytes), None)
  }

  /** Different random bytes give different refresh tokens. */
  lemma RefreshTokensDistinct(a: seq<byte>, b: seq<byte>)
    requires |a| == RefreshTokenBytes && |b| == RefreshTokenBytes && a != b
    ensures MakeRefreshToken(Some(a)).value != MakeRefreshToken(Some(b)).value
  {
    if Encode(a) == Encode(b) {
      EncodeInjective(a, b);
    }
  }

  // ---------------------------------------------------------------------
  // Access tokens

  const Issuer := "chirpy"
  const HS256 := "HS256"
  /** `time.Second`, in the nanoseconds a `time.Duration` counts. */
  const NanosPerSecond := 1_000_000_000
  /** `time.Hour`, in seconds. */
  const SecondsPerHour := 3600
  /** Every access token lives one hour. */
  const AccessTokenSeconds := SecondsPerHour

  /** `jwt.RegisteredClaims` as far as this code sets them; times are whole
      seconds since the Unix epoch, as `jwt.NumericDate` keeps them. */
  datatype Claims = Claims(issuer: string, subject: string, issuedAt: int, expiresAt: int)

  /** What the parser recovers from a compact token: the declared algorithm,
      the claims, the signed text and the signature. */
  datatype Decoded = Decoded(alg: string, claims: Claims, signingInput: string, signature: string)

  /** golang-jwt, abstract. `sign(alg, claims, key)` is the compact token;
      `mac(alg, text, key)` is the signature the parser recomputes when it
      verifies; `decode` splits and decodes a token without verifying it;
      `claimsRejected(claims, now)` is the library's expiry validation. */
  datatype JwtLib = JwtLib(
    sign: (string, Claims, string) -> string,
    mac: (string, string, string) -> string,
    decode: string -> Option<Decoded>,
    claimsRejected: (Claims, int) -> bool)

  /** The library reads back what it signed, and the signature checks out
      under the key it was made with. */
  predicate ReadsBack(lib: JwtLib, alg: string, claims: Claims, key: string) {
    var d := lib.decode(lib.sign(alg, claims, key));
    d.Some? && d.value.alg == alg && d.value.claims == claims
    && lib.mac(alg, d.value.signingInput, key) == d.value.signature
  }

  /** `jwt.NewNumericDate`: a clock reading truncated to whole seconds. */
  function Seconds(t: int): int {
    t / NanosPerSecond
  }

  /** The claims MakeJWT builds: `issueClock` and `expiryClock` are the two
      `time.Now()` calls it makes, for the issue time and for the expiry. */
  function AccessClaims(userID: Uuid, issueClock: int, expiryClock: int): (c: Claims)
    ensures c.issuer == Issuer && c.subject == UuidString(userID)
    ensures c.issuedAt * NanosPerSecond <= issueClock < (c.issuedAt + 1) * NanosPerSecond
    ensures c.expiresAt == Seconds(expiryClock) + AccessTokenSeconds
    ensures c.expiresAt * NanosPerSecond <= expiryClock + AccessTokenSeconds * NanosPerSecond < (c.expiresAt + 1) * NanosPerSecond
    ensures issueClock == expiryClock ==> c.expiresAt == c.issuedAt + AccessTokenSeconds
    ensures issueClock <= expiryClock < issueClock + NanosPerSecond ==>
      c.issuedAt + AccessTokenSeconds <= c.expiresAt <= c.issuedAt + AccessTokenSeconds + 1
  {
    var c := Claims(Issuer, UuidString(userID), Seconds(issueClock), Seconds(expiryClock + AccessTokenSeconds * NanosPerSecond));
    assert Seconds(expiryClock + AccessTokenSeconds * NanosPerSecond) == Seconds(expiryClock) + AccessTokenSeconds;
    c
  }

  /** MakeJWT: an HS256 token for a non-nil user, valid for one hour. */
  function MakeJWT(userID: Uuid, tokenSecret: string, lib: JwtLib, issueClock: int, expiryClock: int): (r: Returned<string, AuthError>)
    ensures !r.Ok() <==> userID == Nil
    ensures !r.Ok() ==> r == Returned("", Some(NilUserId))
    ensures r.Ok() ==> r.value == lib.sign(HS256, AccessClaims(userID, issueClock, expiryClock), tokenSecret)
  {
    if userID == Nil then Returned("", Some(NilUserId))
    else Returned(lib.sign(HS256, AccessClaims(userID, issueClock, expiryClock), tokenSecret), None)
  }

  /** Everything ValidateJWT requires of a token, stated as one conjunction. */
  predicate Accepts(lib: JwtLib, parseUuid: UuidParser, tokenString: string, tokenSecret: string, now: int) {
    var d := lib.decode(tokenString);
    && d.Some?
    && d.value.alg == HS256
    && lib.mac(HS256, d.value.signingInput, tokenSecret) == d.value.signature
    && !lib.claimsRejected(d.value.claims, now)
    && d.value.claims.subject != ""
    && parseUuid(d.value.claims.subject).Ok()
  }

  /** ValidateJWT: the library parses and verifies (its key function refusing
      any algorithm but HS256), then the subject must be present and a UUID. */
  function ValidateJWT(tokenString: string, tokenSecret: string, lib: JwtLib, parseUuid: UuidParser, now: int): (r: Returned<Uuid, AuthError>)
    ensures !r.Ok() ==> r.value == Nil
    ensures r.Ok() <==> Accepts(lib, parseUuid, tokenString, tokenSecret, now)
    ensures r.Ok() ==> parseUuid(lib.decode(tokenString).value.claims.subject) == Returned(r.value, None)
    ensures lib.decode(tokenString).Some? && lib.decode(tokenString).value.alg != HS256 ==>
      r.err == Some(UnexpectedSigningMethod)
  {
    match lib.decode(tokenString)
    case None => Returned(Nil, Some(TokenMalformed))
    case Some(d) =>
      if d.alg != HS256 then Returned(Nil, Some(UnexpectedSigningMethod))
      else if lib.mac(d.alg, d.signingInput, tokenSecret) != d.signature then Returned(Nil, Some(SignatureInvalid))
      else if lib.claimsRejected(d.claims, now) then Returned(Nil, Some(ClaimsRejected))
      else if d.claims.subject == "" then Returned(Nil, Some(SubjectMissing))
      else
        var parsed := parseUuid(d.claims.subject);
        if !parsed.Ok() then Returned(Nil, Some(SubjectNotUuid))
        else Returned(parsed.value, None)
  }

  /** A token MakeJWT issued validates as its user, as long as the library
      reads it back, its time checks pass and uuid.Parse reads the canonical
      text of the user's identifier. */
  lemma IssuedTokenValidates(userID: Uuid, tokenSecret: string, lib: JwtLib, parseUuid: UuidParser, issued: int, now: int)
    requires userID != Nil
    requires ReadsBack(lib, HS256, AccessClaims(userID, issued, issued), tokenSecret)
    requires !lib.claimsRejected(AccessClaims(userID, issued, issued), now)
    requires parseUuid(UuidString(userID)) == Returned(userID, None)
    ensures ValidateJWT(MakeJWT(userID, tokenSecret, lib, issued, issued).value, tokenSecret, lib, parseUuid, now) == Returned(userID, None)
  {
  }

  /** A token signed under one secret fails under any secret whose MAC differs. */
  lemma OtherSecretRejected(claims: Claims, secret: string, other: string, lib: JwtLib, parseUuid: UuidParser, now: int)
    requires ReadsBack(lib, HS256, claims, secret)
    requires var d := lib.decode(lib.sign(HS256, claims, secret)).value;
      lib.mac(HS256, d.signingInput, other) != lib.mac(HS256, d.signingInput, secret)
    ensures ValidateJWT(lib.sign(HS256, claims, secret), other, lib, parseUuid, now) == Returned(Nil, Some(SignatureInvalid))
  {
  }
}

=== FILE: chirps.dfy ===
/** chirps.go: posting, listing, reading and deleting chirps. */
module Chirps {
  import opened Outcomes
  import opened Text
  import opened Uuids
  import opened Auth
  import opened Database
  import opened Http
  import opened Moderation

  /** The request body of a new chirp. Its `userId` is decoded but never used. */
  datatype ChirpPayload = ChirpPayload(body: string, userId: string)

  /** The `Chirp` variable before the body is decoded into it. */
  const ZeroPayload := ChirpPayload("", "")

  const MethodGet := "GET"

  /** The two steps every authenticated handler runs: the bearer token from
      the header, then ValidateJWT on it. The caller is the token's subject. */
  function Authenticate(cfg: Config, headers: Headers, now: int): (r: Returned<Uuid, AuthError>)
    ensures r.Ok() <==>
      GetBearerToken(headers).Ok() && Accepts(cfg.jwt, cfg.parseUuid, GetBearerToken(headers).value, cfg.secretKey, now)
    ensures r.Ok() ==>
      cfg.parseUuid(cfg.jwt.decode(GetBearerToken(headers).value).value.claims.subject) == Returned(r.value, None)
  {
    var token := GetBearerToken(headers);
    if !token.Ok() then Returned(Nil, token.err)
    else ValidateJWT(token.value, cfg.secretKey, cfg.jwt, cfg.parseUuid, now)
  }

  /** The row handleCreateChirp inserts for `caller`. */
  function NewChirp(id: Uuid, now: int, body: string, caller: Uuid): Chirp {
    Chirp(id, now, now, CleanChirpBody(body), caller)
  }

  /** handleCreateChirp. `payload` is the decoded body (None when it is not
      valid JSON), `newId` what uuid.New returned, `now` the clock. The
      length gate reads the chirp before it is decoded, so it never fires. */
  function HandleCreateChirp(cfg: Config, db: Db, headers: Headers, payload: Option<ChirpPayload>, newId: Uuid, now: int): (r: Exchange)
    ensures r.status in {StatusCreated, StatusUnauthorized, StatusInternalServerError}
    ensures r.status == StatusUnauthorized <==> !Authenticate(cfg, headers, now).Ok()
    ensures r.status == StatusInternalServerError <==>
      Authenticate(cfg, headers, now).Ok() && (payload.None? || !db.available || newId in db.chirps)
    ensures r.status != StatusCreated ==> r.db == db && r.body == NoBody
    ensures r.status == StatusCreated ==>
      var chirp := NewChirp(newId, now, payload.value.body, Authenticate(cfg, headers, now).value);
      && r.db == db.(chirps := db.chirps[newId := chirp])
      && r.body == ChirpJson(chirp)
  {
    if Utf8Len(ZeroPayload.body) > MaxChirpLength then Exchange(StatusBadRequest, ErrorJson("Chirp is too long"), db)
    else
      var token := GetBearerToken(headers);
      if !token.Ok() then Exchange(StatusUnauthorized, NoBody, db)
      else
        var caller := ValidateJWT(token.value, cfg.secretKey, cfg.jwt, cfg.parseUuid, now);
        if !caller.Ok() then Exchange(StatusUnauthorized, NoBody, db)
        else match payload
          case None => Exchange(StatusInternalServerError, NoBody, db)
          case Some(chirp) =>
            var (post, after) := CreateChirp(db, NewChirp(newId, now, chirp.body, caller.value));
            if !post.Ok() then Exchange(StatusInternalServerError, NoBody, db)
            else Exchange(StatusCreated, ChirpJson(post.value), after)
  }

  /** The author is the token's subject; the `user_id` the client sends
      changes nothing. */
  lemma CreateIgnoresClaimedAuthor(cfg: Config, db: Db, headers: Headers, body: string, claimed: string, other: string, newId: Uuid, now: int)
    ensures HandleCreateChirp(cfg, db, headers, Some(ChirpPayload(body, claimed)), newId, now)
         == HandleCreateChirp(cfg, db, headers, Some(ChirpPayload(body, other)), newId, now)
  {
  }

  /** No body is too long to post: the gate sees the empty zero value, so a
      body over 140 bytes is stored, masked. */
  lemma CreateAcceptsLongBody(cfg: Config, db: Db, headers: Headers, body: string, newId: Uuid, now: int)
    requires Utf8Len(body) > MaxChirpLength
    requires Authenticate(cfg, headers, now).Ok() && db.available && newId !in db.chirps
    ensures var r := HandleCreateChirp(cfg, db, headers, Some(ChirpPayload(body, "")), newId, now);
      r.status == StatusCreated && r.db.chirps[newId].body == CleanChirpBody(body)
  {
  }

  // ---------------------------------------------------------------------
  // GET /api/chirps

  /** Which listing query runs. An author id that does not parse still
      selects a query by author, with whatever value the parser returned. */
  function ListQuery(cfg: Config, authorID: string, sortVal: string): (q: ChirpQuery)
    ensures q.author.Some? <==> authorID != ""
    ensures q.author.Some? ==> q.author.value == cfg.parseUuid(authorID).value
    ensures q.descending <==> sortVal == "desc"
  {
    var uID := cfg.parseUuid(authorID).value;
    ChirpQuery(if authorID != "" then Some(uID) else None, sortVal == "desc")
  }

  /** handleGetChirps, for the `author_id` and `sort` query parameters ("" when absent). */
  function HandleGetChirps(cfg: Config, db: Db, verb: string, authorID: string, sortVal: string): (r: Reply)
    ensures r.status in {StatusOK, StatusMethodNotAllowed, StatusInternalServerError}
    ensures r.status == StatusMethodNotAllowed <==> verb != MethodGet
    ensures r.status == StatusOK <==> verb == MethodGet && db.available
    ensures r.status == StatusOK ==>
      && r.body.ChirpListJson? && r.body.query == ListQuery(cfg, authorID, sortVal)
      && forall c :: c in r.body.chirps <==>
           c in db.chirps.Values && (authorID != "" ==> c.userId == cfg.parseUuid(authorID).value)
  {
    if verb != MethodGet then Reply(StatusMethodNotAllowed, ErrorText("Method not allowed"))
    else
      var q := ListQuery(cfg, authorID, sortVal);
      var rows := ListChirps(db, q);
      if !rows.Ok() then
        Reply(StatusInternalServerError, ErrorText(if q.author.Some? then "Internal server errror:" else "Internal server error:"))
      else Reply(StatusOK, ChirpListJson(q, rows.value))
  }

  /** An author's listing is the full listing filtered by author, and the
      sort order does not change which chirps are listed. */
  lemma AuthorListingIsFilter(cfg: Config, db: Db, authorID: string, sortVal: string, otherSort: string)
    requires db.available && authorID != ""
    ensures var mine := HandleGetChirps(cfg, db, MethodGet, authorID, sortVal).body.chirps;
      var all := HandleGetChirps(cfg, db, MethodGet, "", otherSort).body.chirps;
      mine == set c | c in all && c.userId == cfg.parseUuid(authorID).value
  {
    var mine := HandleGetChirps(cfg, db, MethodGet, authorID, sortVal).body.chirps;
    var all := HandleGetChirps(cfg, db, MethodGet, "", otherSort).body.chirps;
    assert forall c :: c in mine <==> c in all && c.userId == cfg.parseUuid(authorID).value;
  }

  // ---------------------------------------------------------------------
  // GET /api/chirps/{chirpID}

  /** handleGetOneChirp for the `chirpID` path value. */
  function HandleGetOneChirp(cfg: Config, db: Db, verb: string, chirpID: string): (r: Reply)
    ensures r.status in {StatusOK, StatusNotFound, StatusMethodNotAllowed, StatusInternalServerError}
    ensures r.status == StatusMethodNotAllowed <==> verb != MethodGet
    ensures r.status == StatusNotFound <==>
      verb == MethodGet
      && (!cfg.parseUuid(chirpID).Ok() || (db.available && cfg.parseUuid(chirpID).value !in db.chirps))
    ensures r.status == StatusInternalServerError <==>
      verb == MethodGet && cfg.parseUuid(chirpID).Ok() && !db.available
    ensures r.status == StatusInternalServerError ==> r.body == ErrorText("Internal server error")
    ensures r.status == StatusOK ==> r.body == ChirpJson(db.chirps[cfg.parseUuid(chirpID).value])
  {
    if verb != MethodGet then Reply(StatusMethodNotAllowed, ErrorText("Method not allowed"))
    else
      var parsedID := cfg.parseUuid(chirpID);
      if !parsedID.Ok() then Reply(StatusNotFound, NoBody)
      else
        var chirp := GetOneChirp(db, parsedID.value);
        if !chirp.Ok() then
          if chirp.err == Some(NoRows) then Reply(StatusNotFound, NoBody)
          else Reply(StatusInternalServerError, ErrorText("Internal server error"))
        else Reply(StatusOK, ChirpJson(chirp.value))
  }

  /** A posted chirp is served back, unchanged, at its canonical id. */
  lemma CreateThenGetOne(cfg: Config, db: Db, headers: Headers, payload: ChirpPayload, newId: Uuid, now: int)
    requires HandleCreateChirp(cfg, db, headers, Some(payload), newId, now).status == StatusCreated
    requires cfg.parseUuid(UuidString(newId)) == Returned(newId, None)
    ensures var posted := HandleCreateChirp(cfg, db, headers, Some(payload), newId, now);
      HandleGetOneChirp(cfg, posted.db, MethodGet, UuidString(newId)) == Reply(StatusOK, posted.body)
  {
  }

  // ---------------------------------------------------------------------
  // DELETE /api/chirps/{chirpID}

  /** handleDeleteOneChirp for the `chirpID` path value. Only the author
      deletes; every other outcome leaves the database as it was. The
      handler makes two queries, and `deleteFails` says whether the store
      fails the second (the delete) after answering the first. */
  function HandleDeleteOneChirp(cfg: Config, db: Db, headers: Headers, chirpID: string, now: int, deleteFails: bool): (r: Exchange)
    ensures r.status in {StatusNoContent, StatusBadRequest, StatusUnauthorized, StatusNotFound, StatusForbidden, StatusInternalServerError}
    ensures r.status == StatusBadRequest <==> !cfg.parseUuid(chirpID).Ok()
    ensures r.status == StatusUnauthorized <==> cfg.parseUuid(chirpID).Ok() && !Authenticate(cfg, headers, now).Ok()
    ensures r.status == StatusInternalServerError <==>
      && cfg.parseUuid(chirpID).Ok() && Authenticate(cfg, headers, now).Ok()
      && (|| !db.available
          || (&& deleteFails && cfg.parseUuid(chirpID).value in db.chirps
              && db.chirps[cfg.parseUuid(chirpID).value].userId == Authenticate(cfg, headers, now).value))
    ensures r.status == StatusNotFound <==>
      && cfg.parseUuid(chirpID).Ok() && Authenticate(cfg, headers, now).Ok()
      && db.available && cfg.parseUuid(chirpID).value !in db.chirps
    ensures r.status == StatusForbidden <==>
      && cfg.parseUuid(chirpID).Ok() && Authenticate(cfg, headers, now).Ok()
      && db.available && cfg.parseUuid(chirpID).value in db.chirps
      && db.chirps[cfg.parseUuid(chirpID).value].userId != Authenticate(cfg, headers, now).value
    ensures r.status == StatusNoContent ==>
      && !deleteFails
      && db.chirps[cfg.parseUuid(chirpID).value].userId == Authenticate(cfg, headers, now).value
      && r.db == db.(chirps := db.chirps - {cfg.parseUuid(chirpID).value})
    ensures r.status != StatusNoContent ==> r.db == db
    ensures r.status == StatusInternalServerError ==> r.body == ErrorText("Internal server error")
    ensures r.status != StatusInternalServerError ==> r.body == NoBody
  {
    var parsedID := cfg.parseUuid(chirpID);
    if !parsedID.Ok() then Exchange(StatusBadRequest, NoBody, db)
    else
      var token := GetBearerToken(headers);
      if !token.Ok() then Exchange(StatusUnauthorized, NoBody, db)
      else
        var userID := ValidateJWT(token.value, cfg.secretKey, cfg.jwt, cfg.parseUuid, now);
        if !userID.Ok() then Exchange(StatusUnauthorized, NoBody, db)
        else
          var chirp := GetOneChirp(db, parsedID.value);
          if !chirp.Ok() then
            if chirp.err == Some(NoRows) then Exchange(StatusNotFound, NoBody, db)
            else Exchange(StatusInternalServerError, ErrorText("Internal server error"), db)
          else if chirp.value.userId != userID.value then Exchange(StatusForbidden, NoBody, db)
          else
            var (err, after) := if deleteFails then (Some(StoreFailure), db)
                                else DeleteOneChirp(db, parsedID.value, userID.value);
            if err.Some? then Exchange(StatusInternalServerError, ErrorText("Internal server error"), db)
            else Exchange(StatusNoContent, NoBody, after)
  }

  /** The author deleting a chirp just posted restores the chirps as they
      were, and the chirp is then gone. */
  lemma CreateThenDelete(cfg: Config, db: Db, headers: Headers, payload: ChirpPayload, newId: Uuid, now: int, later: int)
    requires HandleCreateChirp(cfg, db, headers, Some(payload), newId, now).status == StatusCreated
    requires cfg.parseUuid(UuidString(newId)) == Returned(newId, None)
    requires Authenticate(cfg, headers, later).Ok()
    ensures var posted := HandleCreateChirp(cfg, db, headers, Some(payload), newId, now).db;
      var deleted := HandleDeleteOneChirp(cfg, posted, headers, UuidString(newId), later, false);
      && deleted.status == StatusNoContent
      && deleted.db == db
      && HandleGetOneChirp(cfg, deleted.db, MethodGet, UuidString(newId)).status == StatusNotFound
  {
    var caller := Authenticate(cfg, headers, now).value;
    var posted := HandleCreateChirp(cfg, db, headers, Some(payload), newId, now).db;
    assert posted.chirps[newId].userId == caller;
    assert Authenticate(cfg, headers, later).value == caller;
    OwnerDeletes(cfg, posted, headers, UuidString(newId), later);
    assert newId !in db.chirps;
    RemoveInserted(db.chirps, newId, posted.chirps[newId]);
  }

  lemma RemoveInserted<K, V>(m: map<K, V>, k: K, v: V)
    requires k !in m
    ensures m[k := v] - {k} == m
  {
  }

  /** The author's request removes exactly that chirp. */
  lemma OwnerDeletes(cfg: Config, db: Db, headers: Headers, chirpID: string, now: int)
    requires cfg.parseUuid(chirpID).Ok() && Authenticate(cfg, headers, now).Ok() && db.available
    requires var id := cfg.parseUuid(chirpID).value;
      id in db.chirps && db.chirps[id].userId == Authenticate(cfg, headers, now).value
    ensures var r := HandleDeleteOneChirp(cfg, db, headers, chirpID, now, false);
      && r == Exchange(StatusNoContent, NoBody, db.(chirps := db.chirps - {cfg.parseUuid(chirpID).value}))
      && HandleGetOneChirp(cfg, r.db, MethodGet, chirpID).status == StatusNotFound
  {
  }

  /** Someone other than the author is refused, and nothing is deleted. */
  lemma OthersCannotDelete(cfg: Config, db: Db, headers: Headers, chirpID: string, now: int, deleteFails: bool)
    requires cfg.parseUuid(chirpID).Ok() && Authenticate(cfg, headers, now).Ok() && db.available
    requires var id := cfg.parseUuid(chirpID).value;
      id in db.chirps && db.chirps[id].userId != Authenticate(cfg, headers, now).value
    ensures HandleDeleteOneChirp(cfg, db, headers, chirpID, now, deleteFails) == Exchange(StatusForbidden, NoBody, db)
  {
  }

  /** A store that answers the lookup but fails the delete gives 500, and
      the chirp stays. */
  lemma DeleteQueryFails(cfg: Config, db: Db, headers: Headers, chirpID: string, now: int)
    requires cfg.parseUuid(chirpID).Ok() && Authenticate(cfg, headers, now).Ok() && db.available
    requires var id := cfg.parseUuid(chirpID).value;
      id in db.chirps && db.chirps[id].userId == Authenticate(cfg, headers, now).value
    ensures HandleDeleteOneChirp(cfg, db, headers, chirpID, now, true) ==
      Exchange(StatusInternalServerError, ErrorText("Internal server error"), db)
  {
  }
}

=== FILE: database.dfy ===
/** The persistence the handlers call, as maps.

    The refresh-token queries follow internal/database/refresh_token.sql.go.
    The user and chirp queries have no SQL here; they are modelled only as
    far as their names and call sites imply, with the uniqueness an INSERT
    would enforce (chirp and user ids, user e-mail addresses) assumed.
    When `available` is false the database cannot be reached and every query
    fails with `StoreFailure`, changing nothing. */
module Database {
  import opened Outcomes
  import opened Uuids

  /** `sql.ErrNoRows` versus any other failure. */
  datatype DbError = NoRows | StoreFailure

  /** A `refresh_tokens` row; `revokedAt` is the nullable `revoked_at`. */
  datatype RefreshToken = RefreshToken(
    token: string, createdAt: int, updatedAt: int, userId: Uuid, expiresAt: int, revokedAt: Option<int>)

  datatype User = User(id: Uuid, createdAt: int, updatedAt: int, email: string, hashedPassword: string)

  datatype Chirp = Chirp(id: Uuid, createdAt: int, updatedAt: int, body: string, userId: Uuid)

  datatype Db = Db(
    available: bool,
    users: map<string, User>,          // by e-mail address
    chirps: map<Uuid, Chirp>,          // by chirp id
    refreshTokens: map<string, RefreshToken>)  // by token text

  /** The zero values a failed Scan leaves behind. */
  const NoToken := RefreshToken("", 0, 0, Nil, 0, None)
  const NoUser := User(Nil, 0, 0, "", "")
  const NoChirp := Chirp(Nil, 0, 0, "", Nil)

  /** Every row is filed under its own key. */
  ghost predicate WellKeyed(db: Db) {
    && (forall t :: t in db.refreshTokens ==> db.refreshTokens[t].token == t)
    && (forall e :: e in db.users ==> db.users[e].email == e)
    && (forall id :: id in db.chirps ==> db.chirps[id].id == id)
  }

  // ---------------------------------------------------------------------
  // refresh_tokens

  /** CreateRefreshToken: INSERT ... RETURNING every column. The token is
      the row's key, so inserting a token that exists fails. */
  function CreateRefreshToken(db: Db, arg: RefreshToken): (r: (Returned<RefreshToken, DbError>, Db))
    ensures r.0.Ok() <==> db.available && arg.token !in db.refreshTokens
    ensures r.0.Ok() ==> r.0.value == arg
    ensures !r.0.Ok() ==> r.0.value == NoToken && r.1 == db
    ensures r.0.Ok() ==> r.1.refreshTokens == db.refreshTokens[arg.token := arg]
    ensures r.1.users == db.users && r.1.chirps == db.chirps && r.1.available == db.available
  {
    if !db.available then (Returned(NoToken, Some(StoreFailure)), db)
    else if arg.token in db.refreshTokens then (Returned(NoToken, Some(StoreFailure)), db)
    else (Returned(arg, None), db.(refreshTokens := db.refreshTokens[arg.token := arg]))
  }

  /** GetToken: the row whose token equals the argument exactly. */
  function GetToken(db: Db, token: string): (r: Returned<RefreshToken, DbError>)
    ensures !db.available ==> r == Returned(NoToken, Some(StoreFailure))
    ensures db.available && token !in db.refreshTokens ==> r == Returned(NoToken, Some(NoRows))
    ensures r.Ok() <==> db.available && token in db.refreshTokens
    ensures r.Ok() ==> r.value == db.refreshTokens[token]
  {
    if !db.available then Returned(NoToken, Some(StoreFailure))
    else if token !in db.refreshTokens then Returned(NoToken, Some(NoRows))
    else Returned(db.refreshTokens[token], None)
  }

  /** RevokeToken: `revoked_at` and `updated_at` of the matching row become
      the current time, overwriting any earlier revocation. No matching row
      is not an error. */
  function RevokeToken(db: Db, token: string, now: int): (r: (Option<DbError>, Db))
    ensures r.0.None? <==> db.available
    ensures r.0.Some? ==> r.0 == Some(StoreFailure) && r.1 == db
    ensures r.1.users == db.users && r.1.chirps == db.chirps && r.1.available == db.available
    ensures r.1.refreshTokens.Keys == db.refreshTokens.Keys
    ensures forall t :: t in db.refreshTokens && t != token ==> r.1.refreshTokens[t] == db.refreshTokens[t]
    ensures db.available && token in db.refreshTokens ==>
      var before := db.refreshTokens[token];
      var after := r.1.refreshTokens[token];
      && after.revokedAt == Some(now) && after.updatedAt == now
      && after.token == before.token && after.userId == before.userId
      && after.createdAt == before.createdAt && after.expiresAt == before.expiresAt
    ensures token !in db.refreshTokens ==> r.1 == db
  {
    if !db.available then (Some(StoreFailure), db)
    else if token !in db.refreshTokens then (None, db)
    else
      var row := db.refreshTokens[token];
      (None, db.(refreshTokens := db.refreshTokens[token := row.(revokedAt := Some(now), updatedAt := now)]))
  }

  /** DeleteRefreshTokens: DELETE FROM refresh_tokens, every row. */
  function DeleteRefreshTokens(db: Db): (r: (Option<DbError>, Db))
    ensures r.0.None? <==> db.available
    ensures r.0.None? ==> r.1.refreshTokens == map[]
    ensures r.0.Some? ==> r.1 == db
    ensures r.1.users == db.users && r.1.chirps == db.chirps && r.1.available == db.available
  {
    if !db.available then (Some(StoreFailure), db)
    else (None, db.(refreshTokens := map[]))
  }

  // ---------------------------------------------------------------------
  // users and chirps (queries implied by their call sites)

  /** CreateUser: insert the row, unless its id or e-mail address is taken. */
  function CreateUser(db: Db, user: User): (r: (Returned<User, DbError>, Db))
    ensures r.0.Ok() <==>
      db.available && user.email !in db.users && (forall e :: e in db.users ==> db.users[e].id != user.id)
    ensures r.0.Ok() ==> r.0.value == user && r.1 == db.(users := db.users[user.email := user])
    ensures !r.0.Ok() ==> r.0.value == NoUser && r.1 == db
  {
    if !db.available || user.email in db.users || (exists e :: e in db.users && db.users[e].id == user.id) then
      (Returned(NoUser, Some(StoreFailure)), db)
    else (Returned(user, None), db.(users := db.users[user.email := user]))
  }

  /** UserByEmail: the user with that address; none is `sql.ErrNoRows`. */
  function UserByEmail(db: Db, email: string): (r: Returned<User, DbError>)
    ensures r.Ok() <==> db.available && email in db.users
    ensures r.Ok() ==> r.value == db.users[email]
    ensures db.available && email !in db.users ==> r.err == Some(NoRows)
  {
    if !db.available then Returned(NoUser, Some(StoreFailure))
    else if email !in db.users then Returned(NoUser, Some(NoRows))
    else Returned(db.users[email], None)
  }

  /** CreateChirp: insert the row, unless its id is taken. */
  function CreateChirp(db: Db, chirp: Chirp): (r: (Returned<Chirp, DbError>, Db))
    ensures r.0.Ok() <==> db.available && chirp.id !in db.chirps
    ensures r.0.Ok() ==> r.0.value == chirp && r.1 == db.(chirps := db.chirps[chirp.id := chirp])
    ensures !r.0.Ok() ==> r.0.value == NoChirp && r.1 == db
  {
    if !db.available || chirp.id in db.chirps then (Returned(NoChirp, Some(StoreFailure)), db)
    else (Returned(chirp, None), db.(chirps := db.chirps[chirp.id := chirp]))
  }

  /** GetOneChirp: the chirp with that id; none is `sql.ErrNoRows`. */
  function GetOneChirp(db: Db, id: Uuid): (r: Returned<Chirp, DbError>)
    ensures r.Ok() <==> db.available && id in db.chirps
    ensures r.Ok() ==> r.value == db.chirps[id]
    ensures db.available && id !in db.chirps ==> r.err == Some(NoRows)
  {
    if !db.available then Returned(NoChirp, Some(StoreFailure))
    else if id !in db.chirps then Returned(NoChirp, Some(NoRows))
    else Returned(db.chirps[id], None)
  }

  /** DeleteOneChirp: delete the row with this id AND this user id; a row
      of another user, or none, is left alone without error. */
  function DeleteOneChirp(db: Db, id: Uuid, userId: Uuid): (r: (Option<DbError>, Db))
    ensures r.0.None? <==> db.available
    ensures r.1.users == db.users && r.1.refreshTokens == db.refreshTokens && r.1.available == db.available
    ensures db.available && id in db.chirps && db.chirps[id].userId == userId ==> r.1.chirps == db.chirps - {id}
    ensures !(db.available && id in db.chirps && db.chirps[id].userId == userId) ==> r.1 == db
  {
    if !db.available then (Some(StoreFailure), db)
    else if id in db.chirps && db.chirps[id].userId == userId then (None, db.(chirps := db.chirps - {id}))
    else (None, db)
  }

  /** Which of the four listing queries runs: all chirps or one author's,
      oldest or newest first. */
  datatype ChirpQuery = ChirpQuery(author: Option<Uuid>, descending: bool)

  /** The rows a listing query returns (their order is not modelled). */
  function ListChirps(db: Db, q: ChirpQuery): (r: Returned<set<Chirp>, DbError>)
    ensures r.Ok() <==> db.available
    ensures r.Ok() ==> forall c :: c in r.value <==>
      c in db.chirps.Values && (q.author.Some? ==> c.userId == q.author.value)
  {
    if !db.available then Returned({}, Some(StoreFailure))
    else Returned(set id | id in db.chirps && (q.author.Some? ==> db.chirps[id].userId == q.author.value) :: db.chirps[id], None)
  }

  // ---------------------------------------------------------------------
  // The refresh-token store's own laws

  /** A created token is found again, exactly as supplied. */
  lemma CreateThenGet(db: Db, arg: RefreshToken)
    requires db.available && arg.token !in db.refreshTokens
    ensures GetToken(CreateRefreshToken(db, arg).1, arg.token) == Returned(arg, None)
  {
  }

  /** Revoking twice keeps the later time: the first revocation is not preserved. */
  lemma RevokeTwiceOverwrites(db: Db, token: string, first: int, second: int)
    requires db.available && token in db.refreshTokens
    ensures RevokeToken(RevokeToken(db, token, first).1, token, second).1.refreshTokens[token].revokedAt == Some(second)
  {
  }

  /** Every store operation keeps each row under its own key. */
  lemma StoreKeepsWellKeyed(db: Db, arg: RefreshToken, token: string, now: int)
    requires WellKeyed(db)
    ensures WellKeyed(CreateRefreshToken(db, arg).1)
    ensures WellKeyed(RevokeToken(db, token, now).1)
    ensures WellKeyed(DeleteRefreshTokens(db).1)
  {
  }
}

=== FILE: hex.dfy ===
/** Lowercase hexadecimal encoding of bytes, as Go's `hex.EncodeToString`. */
module Hex {

  type byte = x: int | 0 <= x < 256

  predicate IsLowerHex(c: char) {
    '0' <= c <= '9' || 'a' <= c <= 'f'
  }

  /** The value of a hex digit; -1 for any other character. */
  function DigitValue(c: char): int {
    if '0' <= c <= '9' then c as int - '0' as int
    else if 'a' <= c <= 'f' then c as int - 'a' as int + 10
    else -1
  }

  function Digit(n: int): (c: char)
    requires 0 <= n < 16
    ensures IsLowerHex(c) && DigitValue(c) == n
  {
    if n < 10 then ('0' as int + n) as char else ('a' as int + n - 10) as char
  }

  /** The character at position `i` of the encoding: the high nibble of
      byte `i / 2` at even positions, the low nibble at odd ones. */
  function NibbleChar(bs: seq<byte>, i: int): (c: char)
    requires 0 <= i < 2 * |bs|
    ensures IsLowerHex(c)
  {
    var b := bs[i / 2];
    Digit(if i % 2 == 0 then b / 16 else b % 16)
  }

  /** `hex.EncodeToString`: two lowercase digits per byte, high nibble first. */
  function Encode(bs: seq<byte>): (s: string)
    ensures |s| == 2 * |bs|
    ensures forall i :: 0 <= i < |s| ==> IsLowerHex(s[i])
    ensures forall k :: 0 <= k < |bs| ==> 16 * DigitValue(s[2 * k]) + DigitValue(s[2 * k + 1]) == bs[k]
  {
    var s := seq(2 * |bs|, i requires 0 <= i < 2 * |bs| => NibbleChar(bs, i));
    forall k | 0 <= k < |bs|
      ensures 16 * DigitValue(s[2 * k]) + DigitValue(s[2 * k + 1]) == bs[k]
    {
      assert (2 * k) / 2 == k && (2 * k) % 2 == 0;
      assert (2 * k + 1) / 2 == k && (2 * k + 1) % 2 == 1;
    }
    s
  }

  /** Distinct byte strings never share an encoding. */
  lemma EncodeInjective(a: seq<byte>, b: seq<byte>)
    requires Encode(a) == Encode(b)
    ensures a == b
  {
    var s := Encode(a);
    assert |a| == |b|;
    forall k | 0 <= k < |a|
      ensures a[k] == b[k]
    {
      assert 16 * DigitValue(s[2 * k]) + DigitValue(s[2 * k + 1]) == a[k];
    }
  }
}

=== FILE: http.dfy ===
/** What a handler sends back, and the configuration it runs with. */
module Http {
  import opened Outcomes
  import opened Uuids
  import opened Auth
  import opened Database

  const StatusOK := 200
  const StatusCreated := 201
  const StatusNoContent := 204
  const StatusBadRequest := 400
  const StatusUnauthorized := 401
  const StatusForbidden := 403
  const StatusNotFound := 404
  const StatusMethodNotAllowed := 405
  const StatusInternalServerError := 500

  /** The JSON users.go answers with; it has no password field. */
  datatype UserResponse = UserResponse(id: Uuid, email: string, token: string, createdAt: int, updatedAt: int)

  datatype Body =
    | NoBody                          // only a status line
    | ErrorJson(error: string)        // respondWithError: {"error": ...}
    | ErrorText(message: string)      // http.Error: plain text
    | CleanedJson(cleanedBody: string)
    | UserJson(user: UserResponse)
    | ChirpJson(chirp: Chirp)
    | ChirpListJson(query: ChirpQuery, chirps: set<Chirp>)
    | TokenJson(token: string)

  /** The answer of a handler that never writes to the database. */
  datatype Reply = Reply(status: int, body: Body)

  /** The answer of a handler that may write, with the database after it. */
  datatype Exchange = Exchange(status: int, body: Body, db: Db)

  /** `apiConfig` without its database: the signing secret, plus the
      libraries the handlers call. */
  datatype Config = Config(secretKey: string, jwt: JwtLib, parseUuid: UuidParser, hasher: Hasher)
}

=== FILE: moderation.dfy ===
/** handler_validate.go: masking banned words in a chirp, and the length
    gate of the validation endpoint. */
module Moderation {
  import opened Outcomes
  import opened Text
  import opened Http

  const BannedWords: set<string> := {"kerfuffle", "sharbert", "fornax"}
  const Mask := "****"
  /** maxChirpLength, in bytes. */
  const MaxChirpLength := 140

  /** A whole field is banned when its lower case is one of the banned words. */
  predicate IsBanned(word: string) {
    ToLower(word) in BannedWords
  }

  function CleanWord(word: string): string {
    if IsBanned(word) then Mask else word
  }

  function CleanWords(words: seq<string>): (r: seq<string>)
    ensures |r| == |words|
    ensures forall i :: 0 <= i < |words| ==> r[i] == CleanWord(words[i])
  {
    seq(|words|, i requires 0 <= i < |words| => CleanWord(words[i]))
  }

  /** cleanChirpBody: split on white space, mask each banned field, join
      with single spaces. */
  function CleanChirpBody(msgBody: string): (r: string)
    ensures SingleSpaced(r)
    ensures Fields(r) == CleanWords(Fields(msgBody))
  {
    var words := CleanWords(Fields(msgBody));
    CleanWordsAreWords(Fields(msgBody));
    FieldsOfJoin(words);
    JoinSingleSpaced(words);
    Join(words, " ")
  }

  lemma CleanWordsAreWords(words: seq<string>)
    requires AllWords(words)
    ensures AllWords(CleanWords(words))
  {
    assert IsWord(Mask) by {
      assert forall i :: 0 <= i < |Mask| ==> Mask[i] == '*';
    }
  }

  /** The mask itself is not banned, so masking is stable. */
  lemma MaskNotBanned()
    ensures !IsBanned(Mask)
  {
    assert ToLower(Mask) == Mask;
    assert Mask != "kerfuffle" && Mask != "sharbert" && Mask != "fornax";
  }

  /** Cleaning keeps the number of fields; each output field is its input
      field or the mask, and differs from it exactly when that field is banned. */
  lemma CleanKeepsWords(msgBody: string, i: int)
    requires 0 <= i < |Fields(msgBody)|
    ensures |Fields(CleanChirpBody(msgBody))| == |Fields(msgBody)|
    ensures var before := Fields(msgBody)[i];
      var after := Fields(CleanChirpBody(msgBody))[i];
      && (after == before || after == Mask)
      && (after != before <==> IsBanned(before))
  {
    MaskNotBanned();
  }

  /** Cleaning a cleaned body changes nothing. */
  lemma CleanIdempotent(msgBody: string)
    ensures CleanChirpBody(CleanChirpBody(msgBody)) == CleanChirpBody(msgBody)
  {
    var once := CleanWords(Fields(msgBody));
    MaskNotBanned();
    assert CleanWords(once) == once;
  }

  /** Matching ignores case, including the two non-ASCII capitals whose lower
      case is ASCII, but only whole fields match. */
  lemma BannedExamples()
    ensures IsBanned("FoRnAx")
    ensures IsBanned("\U{212A}erfuffle")
    ensures !IsBanned("fornax!")
    ensures !IsBanned("sharberts")
  {
    assert ToLower("FoRnAx") == "fornax";
    assert ToLower("\U{212A}erfuffle") == "kerfuffle";
    assert |ToLower("fornax!")| == 7;
    assert ToLower("sharberts") == "sharberts";
  }

  /** handlerChirpsValidate; `payload` is the decoded body field, None when
      the request body is not valid JSON. */
  function HandleValidateChirp(payload: Option<string>): (r: Reply)
    ensures payload.None? ==> r == Reply(StatusInternalServerError, ErrorJson("Couldn't decode parameters"))
    ensures payload.Some? && Utf8Len(payload.value) > MaxChirpLength ==> r == Reply(StatusBadRequest, ErrorJson("Chirp is too long"))
    ensures r.status == StatusOK <==> payload.Some? && Utf8Len(payload.value) <= MaxChirpLength
    ensures r.status == StatusOK ==>
      r.body.CleanedJson? && SingleSpaced(r.body.cleanedBody) && Fields(r.body.cleanedBody) == CleanWords(Fields(payload.value))
  {
    match payload
    case None => Reply(StatusInternalServerError, ErrorJson("Couldn't decode parameters"))
    case Some(body) =>
      if Utf8Len(body) > MaxChirpLength then Reply(StatusBadRequest, ErrorJson("Chirp is too long"))
      else Reply(StatusOK, CleanedJson(CleanChirpBody(body)))
  }

  /** The limit counts bytes, not characters: 71 two-byte characters are too long. */
  lemma LimitCountsBytes()
    ensures HandleValidateChirp(Some(seq(71, _ => '\U{E9}'))).status == StatusBadRequest
    ensures HandleValidateChirp(Some(seq(140, _ => 'a'))).status == StatusOK
  {
    var wide := seq(71, _ => '\U{E9}');
    WideLength(wide);
  }

  lemma {:induction false} WideLength(s: string)
    requires forall i :: 0 <= i < |s| ==> s[i] == '\U{E9}'
    ensures Utf8Len(s) == 2 * |s|
  {
    if s != [] {
      WideLength(s[1..]);
    }
  }
}

=== FILE: outcomes.dfy ===
/** Optional values and the Go convention of returning a value together with an error. */
module Outcomes {

  datatype Option<+T> = None | Some(value: T)

  /** A Go `(value, error)` pair: `err` is `None` when the call succeeded.
      On failure Go code conventionally returns the zero value alongside the
      error, and several properties of this model are about exactly that. */
  datatype Returned<+T, +E> = Returned(value: T, err: Option<E>) {
    predicate Ok() {
      err.None?
    }
  }
}

=== FILE: sessions.dfy ===
/** refresh_token.go and revoke_token.go: trading a refresh token for an
    access token, and revoking a refresh token. */
module Sessions {
  import opened Outcomes
  import opened Text
  import opened Uuids
  import opened Auth
  import opened Database
  import opened Http

  /** A stored refresh token is redeemable at `now` unless `now` is strictly
      after its expiry or it has been revoked. */
  predicate Redeemable(row: RefreshToken, now: int) {
    !(now > row.expiresAt) && row.revokedAt.None?
  }

  /** handleRefreshToken. Every refusal is 401; the access token is for the
      row's owner and lasts one hour. */
  function HandleRefreshToken(cfg: Config, db: Db, headers: Headers, now: int): (r: Reply)
    ensures r.status in {StatusOK, StatusUnauthorized, StatusInternalServerError}
    ensures !GetBearerToken(headers).Ok() ==> r == Reply(StatusUnauthorized, ErrorText("Unauthorized"))
    ensures var row := GetToken(db, GetBearerToken(headers).value);
      r.status == StatusOK <==>
      GetBearerToken(headers).Ok() && row.Ok() && Redeemable(row.value, now) && row.value.userId != Nil
    ensures var row := GetToken(db, GetBearerToken(headers).value);
      r.status == StatusInternalServerError <==>
      GetBearerToken(headers).Ok() && row.Ok() && Redeemable(row.value, now) && row.value.userId == Nil
    ensures r.status == StatusInternalServerError ==>
      r.body == ErrorText("Internal Server Error: unable to create access token")
    ensures r.status == StatusOK ==>
      var owner := db.refreshTokens[GetBearerToken(headers).value].userId;
      r.body == TokenJson(MakeJWT(owner, cfg.secretKey, cfg.jwt, now, now).value)
  {
    var token := GetBearerToken(headers);
    if !token.Ok() then Reply(StatusUnauthorized, ErrorText("Unauthorized"))
    else
      var row := GetToken(db, token.value);
      if !row.Ok() then Reply(StatusUnauthorized, ErrorText("Status Unauthorized"))
      else if now > row.value.expiresAt then Reply(StatusUnauthorized, ErrorText("Status Unauthorized"))
      else if row.value.revokedAt.Some? then Reply(StatusUnauthorized, ErrorText("Status Unauthorized"))
      else
        var accessToken := MakeJWT(row.value.userId, cfg.secretKey, cfg.jwt, now, now);
        if !accessToken.Ok() then Reply(StatusInternalServerError, ErrorText("Internal Server Error: unable to create access token"))
        else Reply(StatusOK, TokenJson(accessToken.value))
  }

  /** handleRevokeToken. No access token is needed, an unknown token is not
      an error, and only a database failure refuses a well-formed header. */
  function HandleRevokeToken(db: Db, headers: Headers, now: int): (r: Exchange)
    ensures r.status in {StatusNoContent, StatusUnauthorized}
    ensures r.status == StatusNoContent <==> GetBearerToken(headers).Ok() && db.available
    ensures r.status == StatusUnauthorized ==> r == Exchange(StatusUnauthorized, ErrorText("Unauthorized"), db)
    ensures r.status == StatusNoContent ==>
      && r.body == NoBody
      && r.db.refreshTokens.Keys == db.refreshTokens.Keys
      && r.db.users == db.users && r.db.chirps == db.chirps && r.db.available == db.available
      && var token := GetBearerToken(headers).value;
         && (forall t :: t in db.refreshTokens && t != token ==> r.db.refreshTokens[t] == db.refreshTokens[t])
         && (token in db.refreshTokens ==>
               var before := db.refreshTokens[token];
               var after := r.db.refreshTokens[token];
               && after.revokedAt == Some(now) && after.updatedAt == now
               && after.token == before.token && after.userId == before.userId
               && after.createdAt == before.createdAt && after.expiresAt == before.expiresAt)
         && (token !in db.refreshTokens ==> r.db == db)
  {
    var token := GetBearerToken(headers);
    if !token.Ok() then Exchange(StatusUnauthorized, ErrorText("Unauthorized"), db)
    else
      var (err, after) := RevokeToken(db, token.value, now);
      if err.Some? then Exchange(StatusUnauthorized, ErrorText("Unauthorized"), db)
      else Exchange(StatusNoContent, NoBody, after)
  }

  /** Once revoked, a refresh token is refused at any later time. */
  lemma RevokeThenRefresh(cfg: Config, db: Db, headers: Headers, revokedAt: int, now: int)
    requires HandleRevokeToken(db, headers, revokedAt).status == StatusNoContent
    ensures HandleRefreshToken(cfg, HandleRevokeToken(db, headers, revokedAt).db, headers, now).status == StatusUnauthorized
  {
    var token := GetBearerToken(headers).value;
    var after := HandleRevokeToken(db, headers, revokedAt).db;
    if token in db.refreshTokens {
      assert after.refreshTokens[token].revokedAt.Some?;
    }
  }

  /** Expiry is strict: a token is still accepted at its expiry instant and
      refused one nanosecond later. */
  lemma ExpiryBoundary(cfg: Config, db: Db, headers: Headers)
    requires GetBearerToken(headers).Ok() && db.available
    requires var token := GetBearerToken(headers).value;
      token in db.refreshTokens && db.refreshTokens[token].revokedAt.None? && db.refreshTokens[token].userId != Nil
    ensures var expiresAt := db.refreshTokens[GetBearerToken(headers).value].expiresAt;
      && HandleRefreshToken(cfg, db, headers, expiresAt).status == StatusOK
      && HandleRefreshToken(cfg, db, headers, expiresAt + 1).status == StatusUnauthorized
  {
  }

  /** Redeeming does not consume the refresh token: whatever succeeds now
      also succeeds at any earlier time and any number of times. */
  lemma RefreshIsRepeatable(cfg: Config, db: Db, headers: Headers, now: int, earlier: int)
    requires HandleRefreshToken(cfg, db, headers, now).status == StatusOK
    requires earlier <= now
    ensures HandleRefreshToken(cfg, db, headers, earlier).status == StatusOK
  {
  }

  /** Revoking a token the store does not hold answers 204 and changes nothing. */
  lemma RevokeUnknownToken(db: Db, headers: Headers, now: int)
    requires GetBearerToken(headers).Ok() && db.available
    requires GetBearerToken(headers).value !in db.refreshTokens
    ensures HandleRevokeToken(db, headers, now) == Exchange(StatusNoContent, NoBody, db)
  {
  }

  /** A refresh token written to the store and presented before it expires
      yields an access token that validates as its owner. */
  lemma CreateThenRefresh(cfg: Config, db: Db, row: RefreshToken, now: int, later: int)
    requires db.available && row.token !in db.refreshTokens
    requires Trimmed(row.token) && row.revokedAt.None? && row.userId != Nil && now <= row.expiresAt
    requires ReadsBack(cfg.jwt, HS256, AccessClaims(row.userId, now, now), cfg.secretKey)
    requires !cfg.jwt.claimsRejected(AccessClaims(row.userId, now, now), later)
    requires cfg.parseUuid(UuidString(row.userId)) == Returned(row.userId, None)
    ensures var stored := CreateRefreshToken(db, row).1;
      var r := HandleRefreshToken(cfg, stored, AuthorizationHeader(BearerPrefix + row.token), now);
      && r.status == StatusOK
      && ValidateJWT(r.body.token, cfg.secretKey, cfg.jwt, cfg.parseUuid, later) == Returned(row.userId, None)
  {
    BearerRoundTrip(row.token);
    IssuedTokenValidates(row.userId, cfg.secretKey, cfg.jwt, cfg.parseUuid, now, later);
  }
}

=== FILE: text.dfy ===
/** The few Go string primitives the core relies on: `unicode.IsSpace`,
    `strings.TrimSpace`, `strings.HasPrefix`/`TrimPrefix`, `strings.ToLower`,
    `strings.Fields`, `strings.Join`, and `len` of a string (its UTF-8 size). */
module Text {

  /** `unicode.IsSpace`: the characters with the Unicode White_Space property. */
  predicate IsSpace(c: char) {
    || '\t' <= c <= '\r'
    || c == ' '
    || c == '\U{85}'
    || c == '\U{A0}'
    || c == '\U{1680}'
    || '\U{2000}' <= c <= '\U{200A}'
    || c == '\U{2028}'
    || c == '\U{2029}'
    || c == '\U{202F}'
    || c == '\U{205F}'
    || c == '\U{3000}'
  }

  predicate AllSpace(s: string) {
    forall i :: 0 <= i < |s| ==> IsSpace(s[i])
  }

  predicate NoSpace(s: string) {
    forall i :: 0 <= i < |s| ==> !IsSpace(s[i])
  }

  /** Neither begins nor ends with white space. */
  predicate Trimmed(s: string) {
    s == [] || (!IsSpace(s[0]) && !IsSpace(s[|s| - 1]))
  }

  /** `s` is `t` with nothing but white space added before and after it. */
  ghost predicate Surrounds(s: string, t: string) {
    exists i :: 0 <= i <= |s| - |t| && s[i..i + |t|] == t && AllSpace(s[..i]) && AllSpace(s[i + |t|..])
  }

  /** Number of leading white-space characters. */
  function LeadingSpace(s: string): (n: nat)
    ensures n <= |s| && AllSpace(s[..n])
    ensures n < |s| ==> !IsSpace(s[n])
  {
    if s == [] || !IsSpace(s[0]) then 0
    else
      var n := 1 + LeadingSpace(s[1..]);
      assert s[..n] == [s[0]] + s[1..][..n - 1];
      n
  }

  /** Index where the trailing white space begins. */
  function TrailingSpace(s: string): (n: nat)
    ensures n <= |s| && AllSpace(s[n..])
    ensures 0 < n ==> !IsSpace(s[n - 1])
  {
    if s == [] || !IsSpace(s[|s| - 1]) then |s|
    else
      var init := s[..|s| - 1];
      var n := TrailingSpace(init);
      assert s[n..] == init[n..] + [s[|s| - 1]];
      n
  }

  /** Drops the leading white space. */
  function TrimLeft(s: string): (r: string)
    ensures |r| <= |s| && s == s[..|s| - |r|] + r
    ensures AllSpace(s[..|s| - |r|])
    ensures r != [] ==> !IsSpace(r[0])
  {
    var n := LeadingSpace(s);
    assert s == s[..n] + s[n..];
    s[n..]
  }

  /** Drops the trailing white space. */
  function TrimRight(s: string): (r: string)
    ensures |r| <= |s| && s == r + s[|r|..]
    ensures AllSpace(s[|r|..])
    ensures r != [] ==> !IsSpace(r[|r| - 1])
  {
    var n := TrailingSpace(s);
    assert s == s[..n] + s[n..];
    s[..n]
  }

  /** `strings.TrimSpace`. */
  function TrimSpace(s: string): (r: string)
    ensures Trimmed(r)
    ensures Surrounds(s, r)
  {
    TrimsTrim(s);
    TrimsSurround(s);
    TrimRight(TrimLeft(s))
  }

  /** Text without white space at either end is its own trim. */
  lemma TrimSpaceOfTrimmed(s: string)
    requires Trimmed(s)
    ensures TrimSpace(s) == s
  {
    assert TrimLeft(s) == s;
    assert TrimRight(s) == s;
  }

  lemma TrimsTrim(s: string)
    ensures Trimmed(TrimRight(TrimLeft(s)))
  {
    var l := TrimLeft(s);
    var r := TrimRight(l);
    assert l == r + l[|r|..];
    assert r != [] ==> r[0] == l[0];
  }

  lemma TrimsSurround(s: string)
    ensures Surrounds(s, TrimRight(TrimLeft(s)))
  {
    var l := TrimLeft(s);
    var r := TrimRight(l);
    var pre, post := s[..|s| - |l|], l[|r|..];
    assert s == pre + l && l == r + post;
    assert s == pre + r + post;
    SurroundsParts(pre, r, post);
  }

  lemma SurroundsParts(pre: string, t: string, post: string)
    requires AllSpace(pre) && AllSpace(post)
    ensures Surrounds(pre + t + post, t)
  {
    var s := pre + t + post;
    var i := |pre|;
    assert s[..i] == pre;
    assert s[i..i + |t|] == t;
    assert s[i + |t|..] == post;
  }

  /** `strings.HasPrefix`. */
  function HasPrefix(s: string, prefix: string): (b: bool)
    ensures b <==> |prefix| <= |s| && forall i :: 0 <= i < |prefix| ==> s[i] == prefix[i]
  {
    |prefix| <= |s| && s[..|prefix|] == prefix
  }

  /** `strings.TrimPrefix`: the rest of `s` after `prefix`, or `s` itself. */
  function TrimPrefix(s: string, prefix: string): (r: string)
    ensures HasPrefix(s, prefix) ==> s == prefix + r
    ensures !HasPrefix(s, prefix) ==> r == s
  {
    if HasPrefix(s, prefix) then s[|prefix|..] else s
  }

  /** Removing a prefix that was put in front gives back the rest. */
  lemma TrimPrefixRoundTrip(prefix: string, rest: string)
    ensures HasPrefix(prefix + rest, prefix)
    ensures TrimPrefix(prefix + rest, prefix) == rest
  {
  }

  /** Lower case of one character as far as it can matter when comparing
      with ASCII text: the ASCII capitals, and the only two non-ASCII
      characters whose lower case in Go's `unicode.ToLower` is ASCII
      (KELVIN SIGN to 'k', LATIN CAPITAL LETTER I WITH DOT ABOVE to 'i').
      Every other character is kept; Go lowers it to a non-ASCII character. */
  function LowerChar(c: char): (r: char)
    ensures !('A' <= r <= 'Z')
    ensures c == '\U{212A}' ==> r == 'k'
    ensures c == '\U{130}' ==> r == 'i'
    ensures 'A' <= c <= 'Z' ==> 'a' <= r <= 'z' && r as int - c as int == 'a' as int - 'A' as int
    ensures r as int < 0x80 <==> c as int < 0x80 || c == '\U{212A}' || c == '\U{130}'
    ensures c as int < 0x80 && !('A' <= c <= 'Z') ==> r == c
  {
    if 'A' <= c <= 'Z' then (c as int + 32) as char
    else if c == '\U{212A}' then 'k'
    else if c == '\U{130}' then 'i'
    else c
  }

  /** Neither an ASCII capital nor one of the two characters that lower to ASCII. */
  predicate IsLowerAlready(c: char) {
    !('A' <= c <= 'Z') && c != '\U{212A}' && c != '\U{130}'
  }

  /** `strings.ToLower`, character by character. */
  function ToLower(s: string): (r: string)
    ensures |r| == |s|
    ensures forall i :: 0 <= i < |s| ==> r[i] == LowerChar(s[i])
    ensures forall i :: 0 <= i < |s| && 'A' <= s[i] <= 'Z' ==> r[i] as int == s[i] as int + 32
    ensures forall i :: 0 <= i < |r| ==> !('A' <= r[i] <= 'Z')
    ensures (forall i :: 0 <= i < |s| ==> IsLowerAlready(s[i])) ==> r == s
    ensures forall i :: 0 <= i < |s| ==> (r[i] as int < 0x80 <==> s[i] as int < 0x80 || !IsLowerAlready(s[i]))
  {
    seq(|s|, i requires 0 <= i < |s| => LowerChar(s[i]))
  }

  /** Lowering lowered text changes nothing. */
  lemma ToLowerIdempotent(s: string)
    ensures ToLower(ToLower(s)) == ToLower(s)
  {
  }

  /** Length of the longest prefix of `s` without white space. */
  function WordEnd(s: string): (n: nat)
    ensures n <= |s| && NoSpace(s[..n])
    ensures n < |s| ==> IsSpace(s[n])
  {
    if s == [] || IsSpace(s[0]) then 0
    else
      var n := 1 + WordEnd(s[1..]);
      assert s[..n] == [s[0]] + s[1..][..n - 1];
      n
  }

  /** A field as `strings.Fields` produces it: non-empty, no white space. */
  predicate IsWord(w: string) {
    w != [] && NoSpace(w)
  }

  predicate AllWords(ws: seq<string>) {
    forall k :: 0 <= k < |ws| ==> IsWord(ws[k])
  }

  lemma WordsCons(w: string, ws: seq<string>)
    requires IsWord(w) && AllWords(ws)
    ensures AllWords([w] + ws)
  {
    var all := [w] + ws;
    assert forall k :: 1 <= k < |all| ==> all[k] == ws[k - 1];
  }

  /** `strings.Fields`: the maximal runs of non-white-space characters. */
  function Fields(s: string): (ws: seq<string>)
    ensures AllWords(ws)
    decreases |s|
  {
    var t := TrimLeft(s);
    if t == [] then []
    else
      var n := WordEnd(t);
      FirstField(s);
      var rest := Fields(t[n..]);
      WordsCons(t[..n], rest);
      [t[..n]] + rest
  }

  /** After the leading white space, the first field is a word shorter than the input. */
  lemma FirstField(s: string)
    requires TrimLeft(s) != []
    ensures var t := TrimLeft(s); 0 < WordEnd(t) <= |t| <= |s| && IsWord(t[..WordEnd(t)])
  {
    var t := TrimLeft(s);
    assert !IsSpace(t[0]);
  }

  /** `gaps` can stand around and between `n` fields: `n + 1` runs of white
      space, of which those between two fields are non-empty. */
  predicate Separates(gaps: seq<string>, n: nat) {
    && |gaps| == n + 1
    && (forall k :: 0 <= k < |gaps| ==> AllSpace(gaps[k]))
    && (forall k :: 0 < k < n ==> gaps[k] != [])
  }

  /** `gaps[0] + ws[0] + gaps[1] + ... + ws[n - 1] + gaps[n]`. */
  function Interleave(ws: seq<string>, gaps: seq<string>): string
    requires |gaps| == |ws| + 1
    decreases |ws|
  {
    if ws == [] then gaps[0] else gaps[0] + ws[0] + Interleave(ws[1..], gaps[1..])
  }

  /** Text put in front of the first gap comes out in front of the whole. */
  lemma InterleavePrepend(ws: seq<string>, a: string, gaps: seq<string>)
    requires |gaps| == |ws| + 1
    ensures Interleave(ws, [a + gaps[0]] + gaps[1..]) == a + Interleave(ws, gaps)
  {
    var moved := [a + gaps[0]] + gaps[1..];
    assert moved[1..] == gaps[1..];
  }

  /** The gaps `strings.Join` puts around and between `n` elements: the
      separator between two of them, nothing before the first or after the last. */
  function JoinGaps(n: nat, sep: string): (gaps: seq<string>)
    ensures |gaps| == n + 1
  {
    seq(n + 1, k requires 0 <= k <= n => if 0 < k < n then sep else "")
  }

  lemma JoinGapsShift(n: nat, sep: string)
    requires n > 1
    ensures var h := JoinGaps(n - 1, sep); JoinGaps(n, sep)[1..] == [sep + h[0]] + h[1..]
  {
    var g, h := JoinGaps(n, sep), JoinGaps(n - 1, sep);
    var moved := [sep + h[0]] + h[1..];
    assert h[0] == "" && sep + h[0] == sep;
    forall k | 0 <= k < n
      ensures g[1..][k] == moved[k]
    {
      if k > 0 {
        assert moved[k] == h[k];
      }
    }
  }

  /** `strings.Join`. */
  function Join(ws: seq<string>, sep: string): (r: string)
    ensures r == Interleave(ws, JoinGaps(|ws|, sep))
  {
    if ws == [] then ""
    else if |ws| == 1 then
      assert Interleave(ws[1..], JoinGaps(0, sep)) == "";
      ws[0]
    else
      var rest := Join(ws[1..], sep);
      JoinStep(ws, sep);
      ws[0] + sep + rest
  }

  /** One step of `Join`'s contract: the gaps after the first element are a
      separator followed by the gaps of the rest. */
  lemma JoinStep(ws: seq<string>, sep: string)
    requires |ws| > 1
    ensures Interleave(ws, JoinGaps(|ws|, sep)) == ws[0] + sep + Interleave(ws[1..], JoinGaps(|ws| - 1, sep))
  {
    var g, h := JoinGaps(|ws|, sep), JoinGaps(|ws| - 1, sep);
    JoinGapsShift(|ws|, sep);
    var tail := Interleave(ws[1..], h);
    InterleavePrepend(ws[1..], sep, h);
    assert Interleave(ws, g) == g[0] + ws[0] + Interleave(ws[1..], g[1..]);
    assert g[0] == "";
    assert "" + ws[0] == ws[0];
    AppendAssociative(ws[0], sep, tail);
  }

  /** Words separated by exactly one space: no white space other than ' ',
      none at either end, and never two in a row. */
  ghost predicate SingleSpaced(s: string) {
    && Trimmed(s)
    && (forall i :: 0 <= i < |s| && IsSpace(s[i]) ==> s[i] == ' ')
    && (forall i :: 0 < i < |s| && IsSpace(s[i]) ==> !IsSpace(s[i - 1]))
  }

  /** `s` with every white-space character removed. */
  function Squeeze(s: string): string {
    if s == [] then []
    else (if IsSpace(s[0]) then [] else [s[0]]) + Squeeze(s[1..])
  }

  function Concat(ws: seq<string>): string {
    if ws == [] then [] else ws[0] + Concat(ws[1..])
  }

  /** Size in bytes of the UTF-8 encoding of one character. */
  function RuneLen(c: char): nat {
    if c as int < 0x80 then 1
    else if c as int < 0x800 then 2
    else if c as int < 0x1_0000 then 3
    else 4
  }

  /** Go's `len` of a string: the number of bytes of its UTF-8 encoding. */
  function Utf8Len(s: string): (n: nat)
    ensures |s| <= n <= 4 * |s|
    ensures n == |s| <==> forall i :: 0 <= i < |s| ==> s[i] as int < 0x80
  {
    if s == [] then 0
    else
      var n := RuneLen(s[0]) + Utf8Len(s[1..]);
      assert forall i :: 1 <= i < |s| ==> s[i] == s[1..][i - 1];
      n
  }

  /** The byte size of a one-character string is that character's size. */
  lemma Utf8LenOne(c: char)
    ensures Utf8Len([c]) == RuneLen(c)
  {
    assert [c][1..] == [];
  }

  /** The byte size of joined text is the sum of the parts' sizes. */
  lemma {:induction false} Utf8LenAppend(a: string, b: string)
    ensures Utf8Len(a + b) == Utf8Len(a) + Utf8Len(b)
    decreases |a|
  {
    if a == [] {
      assert a + b == b;
    } else {
      assert (a + b)[1..] == a[1..] + b;
      Utf8LenAppend(a[1..], b);
    }
  }

  // ---------------------------------------------------------------------
  // Fields and Join undo each other on words joined by single spaces.

  lemma {:induction false} WordEndOfWord(w: string, rest: string)
    requires NoSpace(w)
    requires rest == [] || IsSpace(rest[0])
    ensures WordEnd(w + rest) == |w|
    decreases |w|
  {
    if w == [] {
      assert w + rest == rest;
    } else {
      assert (w + rest)[1..] == w[1..] + rest;
      WordEndOfWord(w[1..], rest);
    }
  }

  lemma FieldsSkipsSpace(c: char, s: string)
    requires IsSpace(c)
    ensures Fields([c] + s) == Fields(s)
  {
    assert ([c] + s)[1..] == s;
    assert TrimLeft([c] + s) == TrimLeft(s);
  }

  /** A word followed by nothing or by white space is the first field. */
  lemma FieldsOfWordThen(w: string, rest: string)
    requires IsWord(w)
    requires rest == [] || IsSpace(rest[0])
    ensures Fields(w + rest) == [w] + Fields(rest)
  {
    var j := w + rest;
    assert TrimLeft(j) == j;
    WordEndOfWord(w, rest);
    assert j[..|w|] == w;
    assert j[|w|..] == rest;
  }

  lemma SplitFirst<T>(s: seq<T>)
    requires s != []
    ensures s == [s[0]] + s[1..]
  {
  }

  /** Splitting words joined by single spaces gives back the words. */
  lemma FieldsOfJoin(ws: seq<string>)
    requires AllWords(ws)
    ensures Fields(Join(ws, " ")) == ws
  {
    var gaps := JoinGaps(|ws|, " ");
    forall k | 0 <= k < |gaps|
      ensures AllSpace(gaps[k])
    {
    }
    FieldsOfInterleave(ws, gaps);
  }

  // ---------------------------------------------------------------------
  // Fields are exactly the maximal runs of non-white-space.

  /** A string of white space has no fields. */
  lemma FieldsOfSpace(a: string)
    requires AllSpace(a)
    ensures Fields(a) == []
  {
    assert LeadingSpace(a) == |a|;
  }

  /** White space in front does not change the fields. */
  lemma {:induction false} FieldsSkipsSpaces(pre: string, s: string)
    requires AllSpace(pre)
    ensures Fields(pre + s) == Fields(s)
    decreases |pre|
  {
    if pre == [] {
      assert pre + s == s;
    } else {
      AppendAssociative([pre[0]], pre[1..], s);
      assert pre == [pre[0]] + pre[1..];
      FieldsSkipsSpace(pre[0], pre[1..] + s);
      FieldsSkipsSpaces(pre[1..], s);
    }
  }

  /** An interleaving starts with its first gap. */
  lemma InterleaveStart(ws: seq<string>, gaps: seq<string>)
    requires |gaps| == |ws| + 1
    ensures var x := Interleave(ws, gaps); |gaps[0]| <= |x| && x[..|gaps[0]|] == gaps[0]
  {
  }

  /** Words with white space around them and non-empty white space between
      them split into exactly those words. */
  lemma {:induction false} FieldsOfInterleave(ws: seq<string>, gaps: seq<string>)
    requires AllWords(ws) && Separates(gaps, |ws|)
    ensures Fields(Interleave(ws, gaps)) == ws
    decreases |ws|
  {
    if ws == [] {
      FieldsOfSpace(gaps[0]);
    } else {
      var rest := Interleave(ws[1..], gaps[1..]);
      assert Separates(gaps[1..], |ws| - 1) by {
        forall k | 0 < k < |ws| - 1
          ensures gaps[1..][k] != []
        {
          assert gaps[1..][k] == gaps[k + 1];
        }
      }
      assert AllWords(ws[1..]) by {
        forall k | 0 <= k < |ws| - 1
          ensures IsWord(ws[1..][k])
        {
          assert ws[1..][k] == ws[k + 1];
        }
      }
      FieldsOfInterleave(ws[1..], gaps[1..]);
      InterleaveStart(ws[1..], gaps[1..]);
      if rest != [] {
        if |ws| > 1 {
          assert rest[0] == gaps[1][0];
        } else {
          assert rest == gaps[1];
        }
      }
      FieldsOfWordThen(ws[0], rest);
      AppendAssociative(gaps[0], ws[0], rest);
      FieldsSkipsSpaces(gaps[0], ws[0] + rest);
      SplitFirst(ws);
    }
  }

  /** The white space around and between the fields of `s`. */
  function FieldGaps(s: string): (gaps: seq<string>)
    ensures |gaps| == |Fields(s)| + 1
    decreases |s|
  {
    var n := LeadingSpace(s);
    var t := s[n..];
    if t == [] then [s]
    else
      FirstField(s);
      [s[..n]] + FieldGaps(t[WordEnd(t)..])
  }

  /** Every string is its fields interleaved with white-space gaps, so
      `FieldsOfInterleave` decides `Fields` for every input. */
  lemma {:induction false} FieldsSplitAtSpace(s: string)
    ensures Separates(FieldGaps(s), |Fields(s)|)
    ensures s == Interleave(Fields(s), FieldGaps(s))
    ensures FieldGaps(s)[0] == s[..LeadingSpace(s)]
    decreases |s|
  {
    var n := LeadingSpace(s);
    var t := s[n..];
    if t == [] {
      assert s[..n] == s;
    } else {
      FirstField(s);
      var m := WordEnd(t);
      var w, rest := t[..m], t[m..];
      FieldsSplitAtSpace(rest);
      var ws, gs := Fields(rest), FieldGaps(rest);
      assert Fields(s) == [w] + ws;
      assert FieldGaps(s) == [s[..n]] + gs;
      var all := [w] + ws;
      assert all[1..] == ws;
      var gaps := [s[..n]] + gs;
      assert gaps[1..] == gs;
      assert Interleave(all, gaps) == s[..n] + w + rest;
      SplitAt(s, n);
      SplitAt(t, m);
      AppendAssociative(s[..n], w, rest);
      if ws != [] {
        assert Fields([]) == [];
        assert IsSpace(rest[0]);
        assert LeadingSpace(rest) > 0;
        assert gs[0] != [];
      }
      forall k | 0 < k < |all|
        ensures gaps[k] != []
      {
        assert gaps[k] == gs[k - 1];
      }
      forall k | 0 <= k < |gaps|
        ensures AllSpace(gaps[k])
      {
        if k > 0 {
          assert gaps[k] == gs[k - 1];
        }
      }
    }
  }

  /** `Fields(s)` is a given list of words exactly when `s` is those words
      with white space around them and non-empty white space between them. */
  lemma FieldsCharacterised(s: string, ws: seq<string>)
    requires AllWords(ws)
    ensures Fields(s) == ws <==> exists gaps :: Separates(gaps, |ws|) && s == Interleave(ws, gaps)
  {
    if Fields(s) == ws {
      FieldsSplitAtSpace(s);
    }
    if exists gaps :: Separates(gaps, |ws|) && s == Interleave(ws, gaps) {
      var gaps :| Separates(gaps, |ws|) && s == Interleave(ws, gaps);
      FieldsOfInterleave(ws, gaps);
    }
  }

  /** A tab separates fields like a space. */
  lemma FieldsSplitsOnlyAtSpace()
    ensures Fields("a\tbc") == ["a", "bc"]
  {
    var ws, gaps := ["a", "bc"], ["", "\t", ""];
    assert AllWords(ws) by {
      assert IsWord(ws[0]) && IsWord(ws[1]);
    }
    assert Interleave(ws[1..][1..], gaps[1..][1..]) == "";
    assert Interleave(ws, gaps) == "a\tbc";
    FieldsOfInterleave(ws, gaps);
  }

  /** Joining words with one space yields single-spaced text. */
  lemma {:induction false} JoinSingleSpaced(ws: seq<string>)
    requires AllWords(ws)
    ensures SingleSpaced(Join(ws, " "))
    ensures ws != [] ==> Join(ws, " ") != [] && !IsSpace(Join(ws, " ")[0])
  {
    if |ws| <= 1 {
    } else {
      var w := ws[0];
      var tail := Join(ws[1..], " ");
      JoinSingleSpaced(ws[1..]);
      var j := w + " " + tail;
      assert Join(ws, " ") == j;
      forall i | 0 <= i < |j|
        ensures IsSpace(j[i]) ==> j[i] == ' '
        ensures 0 < i && IsSpace(j[i]) ==> !IsSpace(j[i - 1])
      {
        if i < |w| {
          assert j[i] == w[i];
        } else if i == |w| {
          assert j[i - 1] == w[|w| - 1];
        } else {
          assert j[i] == tail[i - |w| - 1];
          if i == |w| + 1 {
            assert j[i] == tail[0];
          } else {
            assert j[i - 1] == tail[i - |w| - 2];
          }
        }
      }
      assert j[|j| - 1] == tail[|tail| - 1];
    }
  }

  // ---------------------------------------------------------------------
  // Fields loses nothing but white space.

  lemma {:induction false} SqueezeAppend(a: string, b: string)
    ensures Squeeze(a + b) == Squeeze(a) + Squeeze(b)
    decreases |a|
  {
    if a == [] {
      assert a + b == b;
    } else {
      assert (a + b)[1..] == a[1..] + b;
      SqueezeAppend(a[1..], b);
    }
  }

  lemma {:induction false} SqueezeAllSpace(a: string)
    requires AllSpace(a)
    ensures Squeeze(a) == []
    decreases |a|
  {
    if a != [] {
      SqueezeAllSpace(a[1..]);
    }
  }

  lemma {:induction false} SqueezeNoSpace(a: string)
    requires NoSpace(a)
    ensures Squeeze(a) == a
    decreases |a|
  {
    if a != [] {
      SqueezeNoSpace(a[1..]);
      assert a == [a[0]] + a[1..];
    }
  }

  /** The fields, put back together, are exactly the non-white-space
      characters of the input, in order. */
  lemma {:induction false} FieldsKeepContent(s: string)
    ensures Concat(Fields(s)) == Squeeze(s)
    decreases |s|
  {
    var t := TrimLeft(s);
    SqueezeTrimLeft(s);
    if t != [] {
      var n := WordEnd(t);
      FieldsKeepContent(t[n..]);
      FieldsKeepContentStep(s);
    }
  }

  /** One field of `FieldsKeepContent`: the first field and the squeezed rest. */
  lemma FieldsKeepContentStep(s: string)
    requires TrimLeft(s) != []
    requires var t := TrimLeft(s); Concat(Fields(t[WordEnd(t)..])) == Squeeze(t[WordEnd(t)..])
    ensures Concat(Fields(s)) == Squeeze(TrimLeft(s))
  {
    var t := TrimLeft(s);
    var n := WordEnd(t);
    var w, rest := t[..n], t[n..];
    SplitAt(t, n);
    assert Fields(s) == [w] + Fields(rest);
    ConcatCons(w, Fields(rest));
    SqueezeAppend(w, rest);
    SqueezeNoSpace(w);
  }

  /** Concatenation is associative; stated once so that the solver need not
      rediscover it on long strings. */
  lemma AppendAssociative<T>(a: seq<T>, b: seq<T>, c: seq<T>)
    ensures a + b + c == a + (b + c)
  {
  }

  lemma SplitAt<T>(s: seq<T>, n: int)
    requires 0 <= n <= |s|
    ensures s == s[..n] + s[n..]
  {
  }

  lemma SqueezeTrimLeft(s: string)
    ensures Squeeze(s) == Squeeze(TrimLeft(s))
  {
    var t := TrimLeft(s);
    var pre := s[..|s| - |t|];
    SqueezeAppend(pre, t);
    SqueezeAllSpace(pre);
  }

  lemma ConcatCons(w: string, ws: seq<string>)
    ensures Concat([w] + ws) == w + Concat(ws)
  {
    assert ([w] + ws)[1..] == ws;
  }
}

=== FILE: users.dfy ===
/** users.go: sign-up, login, and the requested token lifetime. */
module Users {
  import opened Outcomes
  import opened Uuids
  import opened Auth
  import opened Database
  import opened Http

  /** `time.Second` and `time.Hour`, as `time.Duration` nanoseconds. */
  const Second := NanosPerSecond
  const Hour := SecondsPerHour * NanosPerSecond

  /** getExpirationDuration: the requested lifetime if it is 1 to 3600
      seconds, one hour otherwise. */
  function ExpirationDuration(seconds: int): (d: int)
    ensures Second <= d <= Hour
    ensures d == seconds * Second <==> 1 <= seconds <= SecondsPerHour
    ensures !(1 <= seconds <= SecondsPerHour) ==> d == Hour
  {
    if seconds <= 0 then Hour
    else if seconds > SecondsPerHour then Hour
    else seconds * Second
  }

  /** Applying the limit to a lifetime already within it changes nothing. */
  lemma ExpirationDurationStable(seconds: int)
    ensures ExpirationDuration(ExpirationDuration(seconds) / Second) == ExpirationDuration(seconds)
  {
  }

  /** The decoded request body; None when it is not valid JSON. */
  datatype UserData = UserData(password: string, email: string, expiresInSeconds: int)

  /** The row handleCreateNewUser asks the store to insert. */
  function NewUser(id: Uuid, now: int, email: string, hashedPassword: string): User {
    User(id, now, now, email, hashedPassword)
  }

  /** handleCreateNewUser: `newId` is what uuid.New returned, `now` the clock. */
  function HandleCreateNewUser(cfg: Config, db: Db, payload: Option<UserData>, newId: Uuid, now: int): (r: Exchange)
    ensures r.status == StatusBadRequest <==>
      payload.None? || cfg.hasher.generate(payload.value.password).None?
    ensures r.status == StatusInternalServerError <==>
      && payload.Some? && cfg.hasher.generate(payload.value.password).Some?
      && !CreateUser(db, NewUser(newId, now, payload.value.email, cfg.hasher.generate(payload.value.password).value)).0.Ok()
    ensures r.status in {StatusCreated, StatusBadRequest, StatusInternalServerError}
    ensures r.status != StatusCreated ==> r.db == db && r.body == NoBody
    ensures r.status == StatusCreated ==>
      var data := payload.value;
      var stored := NewUser(newId, now, data.email, cfg.hasher.generate(data.password).value);
      && data.email !in db.users
      && r.db == db.(users := db.users[data.email := stored])
      && r.body == UserJson(UserResponse(newId, data.email, "", now, now))
  {
    match payload
    case None => Exchange(StatusBadRequest, NoBody, db)
    case Some(data) =>
      var hashed := HashPassword(cfg.hasher, data.password);
      if !hashed.Ok() then Exchange(StatusBadRequest, NoBody, db)
      else
        var (created, after) := CreateUser(db, NewUser(newId, now, data.email, hashed.value));
        if !created.Ok() then Exchange(StatusInternalServerError, NoBody, db)
        else
          var user := created.value;
          Exchange(StatusCreated, UserJson(UserResponse(user.id, user.email, "", user.createdAt, user.updatedAt)), after)
  }

  /** What sign-up stores is the hasher's output: the plaintext is stored
      only if the hasher returned it unchanged. */
  lemma SignUpStoresHash(cfg: Config, db: Db, data: UserData, newId: Uuid, now: int)
    requires HandleCreateNewUser(cfg, db, Some(data), newId, now).status == StatusCreated
    requires cfg.hasher.generate(data.password) != Some(data.password)
    ensures HandleCreateNewUser(cfg, db, Some(data), newId, now).db.users[data.email].hashedPassword != data.password
  {
  }

  /** handleUserLogin. The clamped lifetime is handed to MakeJWT as a third
      argument that MakeJWT does not declare; the model drops it, so every
      token lasts one hour. */
  function HandleUserLogin(cfg: Config, db: Db, payload: Option<UserData>, now: int): (r: Reply)
    ensures r.status == StatusBadRequest <==> payload.None?
    ensures r.status == StatusInternalServerError <==>
      && payload.Some?
      && (!UserByEmail(db, payload.value.email).Ok()
          || (cfg.hasher.matches(payload.value.password, db.users[payload.value.email].hashedPassword)
              && db.users[payload.value.email].id == Nil))
    ensures r.status == StatusUnauthorized <==>
      && payload.Some? && UserByEmail(db, payload.value.email).Ok()
      && !cfg.hasher.matches(payload.value.password, db.users[payload.value.email].hashedPassword)
    ensures r.status in {StatusOK, StatusBadRequest, StatusUnauthorized, StatusInternalServerError}
    ensures r.status != StatusOK ==> r.body == NoBody
    ensures r.status == StatusOK ==>
      var user := db.users[payload.value.email];
      r.body == UserJson(UserResponse(user.id, user.email, MakeJWT(user.id, cfg.secretKey, cfg.jwt, now, now).value, user.createdAt, user.updatedAt))
  {
    match payload
    case None => Reply(StatusBadRequest, NoBody)
    case Some(data) =>
      var found := UserByEmail(db, data.email);
      if !found.Ok() then Reply(StatusInternalServerError, NoBody)
      else
        var user := found.value;
        if CheckPasswordHash(cfg.hasher, data.password, user.hashedPassword).Some? then Reply(StatusUnauthorized, NoBody)
        else
          var _ := ExpirationDuration(data.expiresInSeconds);
          var token := MakeJWT(user.id, cfg.secretKey, cfg.jwt, now, now);
          if !token.Ok() then Reply(StatusInternalServerError, NoBody)
          else Reply(StatusOK, UserJson(UserResponse(user.id, user.email, token.value, user.createdAt, user.updatedAt)))
  }

  /** An unknown address is a server error, not 401: a wrong password and a
      wrong address are told apart. */
  lemma LoginUnknownEmail(cfg: Config, db: Db, data: UserData, now: int)
    requires db.available && data.email !in db.users
    ensures HandleUserLogin(cfg, db, Some(data), now).status == StatusInternalServerError
  {
  }

  /** The token a successful login returns validates as the user stored
      under that address. */
  lemma LoginTokenNamesUser(cfg: Config, db: Db, data: UserData, now: int, later: int)
    requires HandleUserLogin(cfg, db, Some(data), now).status == StatusOK
    requires var user := db.users[data.email];
      && ReadsBack(cfg.jwt, HS256, AccessClaims(user.id, now, now), cfg.secretKey)
      && !cfg.jwt.claimsRejected(AccessClaims(user.id, now, now), later)
      && cfg.parseUuid(UuidString(user.id)) == Returned(user.id, None)
    ensures var r := HandleUserLogin(cfg, db, Some(data), now);
      ValidateJWT(r.body.user.token, cfg.secretKey, cfg.jwt, cfg.parseUuid, later) == Returned(db.users[data.email].id, None)
  {
    var user := db.users[data.email];
    IssuedTokenValidates(user.id, cfg.secretKey, cfg.jwt, cfg.parseUuid, now, later);
  }

  /** Signing up and then logging in with the same password succeeds for the
      new account, given that bcrypt accepts the password against its own hash. */
  lemma SignUpThenLogin(cfg: Config, db: Db, data: UserData, newId: Uuid, now: int, later: int)
    requires HandleCreateNewUser(cfg, db, Some(data), newId, now).status == StatusCreated
    requires newId != Nil
    requires cfg.hasher.matches(data.password, cfg.hasher.generate(data.password).value)
    ensures var after := HandleCreateNewUser(cfg, db, Some(data), newId, now).db;
      var r := HandleUserLogin(cfg, after, Some(data), later);
      r.status == StatusOK && r.body.user.id == newId && r.body.user.email == data.email
  {
  }
}

=== FILE: uuids.dfy ===
/** 128-bit identifiers (github.com/google/uuid) and their canonical text.
    Parsing text into a UUID belongs to the library and is a parameter of
    the operations that need it; only the formatting is defined here. */
module Uuids {
  import opened Outcomes
  import opened Hex

  type Uuid = b: seq<byte> | |b| == 16 witness [0, 0, 0, 0, 0, 0, 0, 0, 0, 0, 0, 0, 0, 0, 0, 0]

  /** `uuid.Nil`, the all-zero identifier. */
  const Nil: Uuid := [0, 0, 0, 0, 0, 0, 0, 0, 0, 0, 0, 0, 0, 0, 0, 0]

  datatype ParseError = InvalidUuid

  /** `uuid.Parse`, abstract. Like every Go function it returns a value even
      when it also returns an error. */
  type UuidParser = string -> Returned<Uuid, ParseError>

  /** Positions of the four hyphens in the canonical form. */
  predicate IsHyphenAt(i: int) {
    i == 8 || i == 13 || i == 18 || i == 23
  }

  /** Number of hyphens before position `i` of the canonical form. */
  function HyphensBefore(i: int): int {
    (if i > 8 then 1 else 0) + (if i > 13 then 1 else 0) + (if i > 18 then 1 else 0) + (if i > 23 then 1 else 0)
  }

  /** Position in the canonical form of the high digit of byte `k`. */
  function HighDigitAt(k: int): int {
    2 * k + (if k >= 4 then 1 else 0) + (if k >= 6 then 1 else 0) + (if k >= 8 then 1 else 0) + (if k >= 10 then 1 else 0)
  }

  /** Character `i` of the canonical form of `u`. */
  function CanonicalChar(u: Uuid, i: int): (c: char)
    requires 0 <= i < 36
    ensures if IsHyphenAt(i) then c == '-' else IsLowerHex(c)
  {
    if IsHyphenAt(i) then '-'
    else
      var j := i - HyphensBefore(i);
      Digit(if j % 2 == 0 then u[j / 2] / 16 else u[j / 2] % 16)
  }

  /** Both digits of byte `k` read back as that byte. */
  lemma CanonicalByte(u: Uuid, k: int)
    requires 0 <= k < 16
    ensures 0 <= HighDigitAt(k) && HighDigitAt(k) + 1 < 36
    ensures 16 * DigitValue(CanonicalChar(u, HighDigitAt(k))) + DigitValue(CanonicalChar(u, HighDigitAt(k) + 1)) == u[k]
  {
    DigitsOfByte(k);
    assert (2 * k) / 2 == k && (2 * k) % 2 == 0;
    assert (2 * k + 1) / 2 == k && (2 * k + 1) % 2 == 1;
  }

  /** `UUID.String`: `xxxxxxxx-xxxx-xxxx-xxxx-xxxxxxxxxxxx`, two lowercase hex
      digits per byte, high nibble first. */
  function UuidString(u: Uuid): (s: string)
    ensures |s| == 36
    ensures forall i :: 0 <= i < 36 ==> if IsHyphenAt(i) then s[i] == '-' else IsLowerHex(s[i])
    ensures forall k :: 0 <= k < 16 ==> 16 * DigitValue(s[HighDigitAt(k)]) + DigitValue(s[HighDigitAt(k) + 1]) == u[k]
  {
    var s := seq(36, i requires 0 <= i < 36 => CanonicalChar(u, i));
    forall k | 0 <= k < 16
      ensures 16 * DigitValue(s[HighDigitAt(k)]) + DigitValue(s[HighDigitAt(k) + 1]) == u[k]
    {
      CanonicalByte(u, k);
    }
    s
  }

  lemma DigitsOfByte(k: int)
    requires 0 <= k < 16
    ensures 0 <= HighDigitAt(k) && HighDigitAt(k) + 1 < 36
    ensures !IsHyphenAt(HighDigitAt(k)) && !IsHyphenAt(HighDigitAt(k) + 1)
    ensures HighDigitAt(k) - HyphensBefore(HighDigitAt(k)) == 2 * k
    ensures HighDigitAt(k) + 1 - HyphensBefore(HighDigitAt(k) + 1) == 2 * k + 1
  {
  }

  /** The canonical text names exactly one identifier. */
  lemma UuidStringInjective(a: Uuid, b: Uuid)
    requires UuidString(a) == UuidString(b)
    ensures a == b
  {
    var s := UuidString(a);
    forall k | 0 <= k < 16
      ensures a[k] == b[k]
    {
      assert 16 * DigitValue(s[HighDigitAt(k)]) + DigitValue(s[HighDigitAt(k) + 1]) == a[k];
    }
  }
}
